=== FILE: README.md ===
# Snake AI decision core — a Dafny model

This project models the autopilot of a browser Snake game (`game.js`):
the 30×30 board with its two modes, normal (walls kill) and wall-through
(the board is a torus), and the pieces the AI builds its move choice
from. Those pieces are:

- the safety test for a cell and the wrapped distance;
- the one-tick transitions: queueing a heading, moving the snake, and
  detecting a collision;
- the free-space count and the closed-loop (trap) test;
- the multi-step prediction and the risky-path test;
- the A* search with path reconstruction;
- the three bounded memories: the position history for loop detection,
  the time-stamped danger memory and the pattern memory of
  per-direction success rates;
- the direction selections: exploration, alternative escape, the
  starving food search and the emergency escape;
- the bookkeeping after a committed decision, and the food count.

The game keeps its state in closed-over mutable variables. Here that
state is one immutable `Game.State` record, and every operation is a
pure function or a method that returns the new state or its verdict.

Some inputs cannot be computed inside the model, so they are parameters:

- `now` is the clock reading (`Date.now()`);
- `refill` is the food list the random generator would produce;
- `boundary` is the exploration boundary score.

JavaScript's truncating `%` is `Grid.JsMod`. The two wrap idioms of the
source are `Grid.WrapOnce` (`(v + N) % N`) and `Grid.WrapTwice`
(`((v % N) + N) % N`), and they are related by lemmas.

Modules follow the structure of the program:

| module | file | covers |
|---|---|---|
| Grid | grid.dfy | board size, cells, direction tokens, JS modulo, wrapping, distances |
| Game | game.dfy | the state record, starving and crazy tests, `isSafe` |
| Memory | memory.dfy | `isInLoop`, danger memory with trimming, `updateSafePatterns` |
| Motion | motion.dfy | `setNextDirection`, `moveSnake`, `checkCollision` |
| Space | space.dfy | `countFreeSpace`, `isInClosedLoop` |
| Simulation | simulation.dfy | `predictFutureState`, `isRiskyPath` |
| Search | search.dfy | `aStarPath` with its direction sort, `getHeuristic`, `reconstructPath` |
| Policy | policy.dfy | exploration, escapes, starving food search, pattern push, decision fallback, food count |

The model reproduces the following behaviours of the code as written:

- In the prediction, eating a food grows the snake by two cells. The
  tail is duplicated and then not popped.
- The starving fallback move is always horizontal. `dx` is never 0, so
  the vertical branch is dead.
- Past 15 entries the pattern push sorts the list in place. The result
  of `slice(0, 15)` is discarded, so nothing is cut.
- The decision counter is a local variable that starts at 0 on every
  decision, so the "random safe direction" safety valve never fires.

## Model

| member | source | states |
|---|---|---|
| Grid.DirVec | game.js:1176-1181 | each direction token is a unit move; the vertical tokens are exactly those with no horizontal part |
| Grid.DirVecInjective | game.js:1176-1181 | distinct tokens give distinct moves |
| Grid.DirOf | game.js:1263 | the token name the move code derives from a unit heading maps back to that heading |
| Grid.JsMod | game.js:200-201 | JavaScript remainder: strictly between -b and b, equal to the mathematical remainder for a non-negative dividend, non-positive for a non-positive one, and differing from the dividend by a multiple of b |
| Grid.WrapTwiceIsModulus | game.js:199-201 | the `isSafe` double-modulo wrap is the mathematical remainder mod 30, so it always lands on the board |
| Grid.WrapOnceAgrees | game.js:1257-1260 | the single `(v + 30) % 30` wrap agrees with the double wrap for every v >= -30, lands on the board, and leaves board coordinates unchanged |
| Grid.WrapOnceLeavesBoardBelowMinusN | game.js:1257-1260 | the single wrap is not a modulus below -30: it maps -31 to -1 |
| Grid.StepWrappedInGrid | game.js:1257-1260 | a wrapped unit step from a board cell stays on the board and changes only the coordinate of its axis |
| Grid.WrappedDistance | game.js:211-217 | the wrapped distance never exceeds the Manhattan distance; for offsets of at most 30 per axis it lies in 0..30; between board cells it is 0 exactly for equal cells |
| Grid.WrappedDistanceBasics | game.js:211-217 | on board cells the wrapped distance is symmetric, lies in 0..30, never exceeds the Manhattan distance, and is 0 exactly for equal cells |
| Grid.AxisDistanceStep | game.js:211-217 | a wrapped unit step changes the wrapped distance along one axis by at most one |
| Grid.WrappedDistanceStep | game.js:211-217 | a wrapped unit step lowers the wrapped distance to a target by at most one |
| Grid.ManhattanStep | game.js:521-523 | an unwrapped unit step changes the Manhattan distance by exactly one |
| Game.IsSafe | game.js:196-208 | in wall-through mode a cell is safe exactly when its mathematical remainder cell (mod 30) is off the snake and, when asked, off the danger memory; in normal mode exactly when it is on the board, off the snake and, when asked, off the danger memory |
| Game.SafeMeansFree | game.js:196-208 | a safe cell is on the board in normal mode, is not a snake cell if on the board, and is not a danger cell when danger is checked |
| Game.FreeMeansSafe | game.js:196-208 | conversely, a board cell off the snake (and off the danger memory when checked) is safe |
| Game.SafePeriodic | game.js:199-201 | in wall-through mode safety is periodic with period 30 in both coordinates |
| Memory.IsInLoop | game.js:227-241 | the kept history is the old one with the (head, heading) record appended, minus its oldest record when that makes 31; a loop is reported exactly when the record occurs at least 8 times in the kept history; so a loop is reported when the record already occurred 8 times and only when it already occurred at least 7 times |
| Memory.NoLoopRightAfterReset | game.js:227-241 | after the history is cleared by eating, fewer than 7 further records cannot report a loop |
| Memory.ReplayShort | game.js:231-235 | while the history has not reached 30 records, each call only appends |
| Memory.Retime | game.js:1304-1306 | re-adding a known danger cell keeps the cell set and the order and sets only that entry's timestamp to now |
| Memory.AppendDanger | game.js:1304-1306 | adding a new danger cell appends it with timestamp now |
| Memory.RecordDanger | game.js:1304-1306 | after recording, the danger cells are the old ones plus the head; every entry for the head cell carries now; other entries are kept unchanged; the size grows only for a new cell; cells stay distinct |
| Memory.Unexpired | game.js:1329-1344 | exactly the entries not older than 30 seconds remain, cells stay distinct |
| Memory.OldestIndex | game.js:1347-1351 | picks an entry with the smallest timestamp |
| Memory.RemoveAt | game.js:1355-1358 | deleting one entry removes exactly that entry |
| Memory.DropOldest | game.js:1347-1360 | removing the k oldest keeps the remaining entries and distinctness |
| Memory.EvictedNotNewer | game.js:1347-1360 | no evicted entry is newer than any kept entry |
| Memory.TrimDanger | game.js:1327-1361 | after trimming: no expired entry, exactly min(20, number of live entries) entries, all from the old memory, every live entry kept when at most 20 are live, every evicted live entry no newer than any kept one, cells distinct |
| Memory.FreshEntrySurvives | game.js:1302-1307 | the entry just recorded at time now survives the trim that follows it |
| Memory.BlendRate | game.js:1285 | the blended rate lies between the old rate and the outcome value (1 or 0.5) |
| Memory.FindPattern | game.js:1283 | `find` returns the first pattern for the direction, or none |
| Memory.BumpPattern | game.js:1283-1288 | the first pattern for the direction gets the blended rate and nothing else changes; without one, a new pattern with rate 1 or 0.5 is appended |
| Memory.InsertByRate | game.js:1292 | inserting into a rate-sorted list keeps it sorted and adds exactly that pattern |
| Memory.SortByRate | game.js:1292 | the sort by descending rate is a permutation and is sorted |
| Memory.SortedPrefix | game.js:1292-1293 | the first k of a rate-sorted permutation come from the list and are at least as good as every pattern left out |
| Memory.PrunePatterns | game.js:1291-1294 | a list of at most 20 is untouched; a longer one becomes its 15 best, sorted, a sub-multiset of the original, every dropped pattern no better than a kept one |
| Memory.UpdateSafePatterns | game.js:1282-1295 | the list never exceeds 20 and below 20 it is exactly the bumped list |
| Memory.BumpKeepsRatesInRange | game.js:1283-1288 | rates in [0.5, 1.5] stay in range after a bump |
| Memory.UpdateKeepsRatesInRange | game.js:1282-1295 | rates in [0.5, 1.5] stay in range after an update |
| Motion.Turn | game.js:340-345 | the simulated heading update keeps a unit heading unit, never reverses it, and yields either the old heading or the token's move |
| Motion.TurnKeepsHeading | game.js:340-345 | the heading is unchanged exactly when the token is refused or is the heading already |
| Motion.SetNextDirection | game.js:1176-1181 | only the queued heading changes; it becomes the token's move when the guard accepts and is unchanged otherwise; a sane heading pair stays sane (the queue never reverses the heading) |
| Motion.OnlyPerpendicularTurns | game.js:1176-1181 | for a unit heading, a token for the same or the opposite direction leaves the queue untouched, and every change is a perpendicular turn to the token's move |
| Motion.LaterTokenWins | game.js:1176-1181 | an accepted later token overrides an earlier one |
| Motion.FoodIndex | game.js:1267 | `findIndex`: the first food on the head cell, or the length when there is none |
| Motion.FoodIndexFound | game.js:1267 | the index is found exactly when the head is a food cell |
| Motion.RemoveFood | game.js:1270 | `splice(k, 1)` removes exactly that one food and keeps the others in their order: position i holds the old food i before k and the old food i+1 from k on |
| Motion.RemoveFoodKeepsOrder | game.js:1270 | removing the first of three foods leaves the second and the third, in that order |
| Motion.MoveSnake | game.js:1251-1279 | the heading becomes the queued heading; the new head is the (wrapped) step; on food: grows by the head, score +10×difficulty, food removed as `splice` of the first food on the head, the others keeping their order (refilled when it was the last), clock reset, history cleared; otherwise the tail drops and score, foods, clock and history are unchanged; the patterns are updated with the outcome |
| Motion.MoveLengthAndScore | game.js:1265-1277 | a move grows the snake by one when eating and keeps its length otherwise; the score never decreases |
| Motion.MoveKeepsHeadingOk | game.js:1252-1253 | after a move the heading pair is sane |
| Motion.WrapMoveStaysOnBoard | game.js:1257-1260 | in wall-through mode a head on the board stays on the board |
| Motion.CheckCollision | game.js:1298-1361 | a collision is reported exactly when the head is on its own body or off the board in normal mode; only the danger memory changes, and only on a collision; it then becomes the trimmed memory after recording the head, so it holds no expired entry and at most 20 entries, and each entry is an old one or the head with timestamp now; while the memory had fewer than 20 entries, every live old entry at another cell is kept; when the memory's cells are distinct and every stored timestamp is older than now, it holds the head with timestamp now |
| Motion.CollisionAfterMove | game.js:1298-1324 | after a move without food, a collision happens exactly when the new head hits the body minus its tail or, in normal mode, leaves the board |
| Motion.CollisionAfterMeal | game.js:1298-1324 | after a meal, a collision happens exactly when the new head hits any old body cell or, in normal mode, leaves the board |
| Space.Radius | game.js:542 | a non-zero radius argument is used as given; 0 falls back to a default in 3..10 |
| Space.Weighted | game.js:544-560 | each counted cell weighs 1, or 1.5 when the centre is a board corner |
| Space.CountFreeSpace | game.js:541-564 | the double loop computes the window count of the reference definition `FreeSpace` |
| Space.ColumnBound | game.js:548-561 | one column counts at most its height, and all of it in wall-through mode with nothing excluded |
| Space.WindowBound | game.js:547-562 | the window counts at most its area, and all of it in wall-through mode with nothing excluded |
| Space.FreeSpaceRange | game.js:541-564 | the free space lies between 0 and the weighted window area, and equals that area in wall-through mode with nothing excluded |
| Space.ColumnMonotone | game.js:558 | excluding more cells never counts more in a column |
| Space.WindowMonotone | game.js:558 | excluding more cells never counts more in a window |
| Space.FreeSpaceMonotone | game.js:558 | excluding more cells never yields more free space |
| Space.CountedIsSafe | game.js:549-558 | for coordinates at least -30, a cell counted against the snake is exactly a safe cell |
| Space.CountBlocked | game.js:575-590 | at most the four neighbours are blocked |
| Space.WrappedAxisNeighbours | game.js:580-582 | for a board coordinate, the two wrapped neighbours differ from it and from each other |
| Space.CountBlockedUnrolled | game.js:575-590 | in wall-through mode, the blocked count is the number of wrapped neighbours on the body |
| Space.BlockedAtMostBody | game.js:575-590 | in wall-through mode at most as many distinct neighbours are blocked as there are body cells (two or fewer) |
| Space.ShortSnakeNeverTrappedWhenWrapping | game.js:567-600 | in wall-through mode a snake of at most three cells is never judged trapped |
| Space.IsInClosedLoop | game.js:567-600 | a trap has at least the threshold of blocked neighbours and a non-empty snake; in normal mode a snake of at most 37 cells is never judged trapped around a board cell |
| Space.NormalWindowBound | game.js:547-562 | in normal mode the radius-7 window around a board cell counts at least 64 positions minus one per excluded cell |
| Space.WideWindow | game.js:547-556 | in normal mode the radius-7 window around a board cell holds at least 64 board positions |
| Space.WindowExclusion | game.js:558 | in normal mode each excluded cell hides at most one window position |
| Space.WindowDrop | game.js:558 | in normal mode one more excluded cell hides at most the one window position it sits on |
| Space.ColumnDrop | game.js:558 | in normal mode one more excluded cell hides at most the one column position it sits on |
| Space.ColumnSplit | game.js:548 | a column count splits at any row |
| Space.WindowSplit | game.js:547 | a window count splits at any column |
| Space.FullColumn | game.js:551-553 | in normal mode a column segment inside the board counts every row when nothing is excluded |
| Space.TallColumn | game.js:548-553 | in normal mode the 15 rows around a board row include at least 8 board rows |
| Space.BoardColumns | game.js:547-553 | in normal mode n board columns around a board row count at least 8n positions |
| Simulation.Horizon | game.js:338 | the simulated steps are the first min(path length, steps) tokens |
| Simulation.PredictStep | game.js:339-365 | one predicted step turns by the guard and puts the (wrapped) step at the head; landing on a food removes exactly that food and grows the snake by two cells, otherwise length and foods are unchanged |
| Simulation.PredictConservesMass | game.js:331-369 | over a whole prediction, snake length + 2 × food count is conserved, the snake never shrinks and grows by at most two cells per token, foods are only removed |
| Simulation.PredictFutureState | game.js:331-369 | the predicted snake is non-empty; snake length + 2 × food count is that of the game; the snake grows by 0 to 2 × min(path length, steps) cells; the foods left are among the game's foods |
| Simulation.PredictVersusMove | game.js:331-369 | one predicted step agrees with `setNextDirection` + `moveSnake` on head and heading, equals it without food, and is one cell longer after a meal |
| Simulation.RequiredSpace | game.js:321 | the probe radius lies in 0..10 |
| Simulation.ProbedPrefix | game.js:293-316 | probing one more token is one more probe step |
| Simulation.ProbeOnce | game.js:294-325 | one loop iteration advances the probe, reports a body hit, and stops exactly on a step-level risk |
| Simulation.IsRiskyPath | game.js:281-328 | the loop computes `Risky`: starving and unfocused is never risky; otherwise some probed step within the horizon collides with the body, or (unfocused) lands in a trap or too little space |
| Simulation.RiskStaysFound | game.js:293-326 | a risk found before step k is still found before any later step |
| Simulation.RiskyStepIsFound | game.js:293-326 | a risky step before m makes the path risky at horizon m |
| Simulation.FoundRiskHasStep | game.js:293-326 | a path risky at horizon k has a risky step before k |
| Simulation.RiskAtPrefix | game.js:293-326 | the risk at step i depends only on the first i + 1 tokens |
| Simulation.RiskBeforePrefix | game.js:293-326 | extending a path does not change its risk up to a horizon it already covers |
| Simulation.RiskGrowsWithHorizon | game.js:293 | a path risky at a horizon stays risky at any longer horizon |
| Simulation.FocusedRiskIsCollision | game.js:310-313 | with the self-collision focus, risk is exactly a body hit |
| Simulation.FocusedRiskIsRisk | game.js:310-326 | a risky step found with the self-collision focus is a risky step without it (`RiskBefore`); the top-level `Risky` differs while starving, because the unfocused test then returns false at once |
| Simulation.ShortSnakeNeverCramped | game.js:321-324 | a snake shorter than three cells is never judged cramped |
| Simulation.RiskyBasics | game.js:282-283 | the empty path is never risky, and an unfocused test while starving is never risky |
| Search.BoxInUniverse | game.js:450-455 | every cell the search can enqueue lies in a finite universe |
| Search.ReconstructPath | game.js:530-538 | walking the parent links back yields a path that replays from the start to the current cell through safe cells, non-empty unless the current cell is the start |
| Search.PickMin | game.js:396-397 | the node taken is one of minimal f, the first such in queue order |
| Search.Neighbour | game.js:446-455 | the neighbour is the wrapped step in wall-through search, the plain step otherwise, and is skipped exactly when the board-bound search leaves the board |
| Search.NeighbourInUniverse | game.js:446-458 | a safe neighbour lies in the finite universe and is enterable |
| Search.LinkKeepsInv | game.js:494-505 | linking a safe neighbour from a closed node keeps the search invariant |
| Search.LinkKeepsLinks | game.js:495 | a new parent link from a closed node is a valid safe step |
| Search.LinkKeepsRanks | game.js:495 | parents still close before their children |
| Search.EnqueueKeepsQueue | game.js:503-512 | enqueueing keeps the open queue duplicate-free and off the closed set |
| Search.Relax | game.js:446-514 | relaxing one direction keeps the search invariant |
| Search.Expand | game.js:446-515 | expanding all directions keeps the search invariant |
| Search.StartSearch | game.js:373-393 | the search starts with the start alone, g = 0 and f = the mode's heuristic |
| Search.SearchStep | game.js:396-515 | one iteration either returns a route to the target or keeps the invariant, counts one step and shrinks the unexplored universe |
| Search.CloseKeepsInv | game.js:397-406 | closing the popped node keeps the invariant and shrinks the unexplored universe |
| Search.RemoveAt | game.js:397 | removing the popped node removes exactly that node |
| Search.WalkLength | game.js:446-458 | a board-bound walk is at least as long as the Manhattan distance, and a wrapped walk between board cells at least as long as the wrapped distance |
| Search.AStarPath | game.js:372-519 | equal start and target give the empty path; a step budget of 0 gives the empty path; a non-empty result is a route: it replays to the target, every cell entered is safe (on the board unless wrapping), and it is no shorter than the Manhattan or wrapped distance |
| Search.DirRank | game.js:408-413 | the rank of a token is its position in the list up, right, down, left |
| Search.CompareIsKeyOrder | game.js:416-443 | the direction comparator compares 0/1 keys: at an edge a long, well-fed snake puts first the tokens along that edge's axis (horizontal at a left or right edge, vertical at a top or bottom edge); a starving snake puts the tokens leaving the board last; otherwise all tie |
| Search.KeyedAs | game.js:416-443 | picking the tokens of one key keeps exactly those tokens |
| Search.KeyedAsKeepsRank | game.js:416-443 | picking the tokens of one key keeps their relative order |
| Search.KeyedAsSplits | game.js:416-443 | the key-0 and key-1 tokens together are the original tokens |
| Search.GroupsOrdered | game.js:416-443 | key-0 tokens followed by key-1 tokens, each group in list order, are ordered by key and then by list position |
| Search.SearchOrder | game.js:408-446 | the wall-through search tries the four tokens as a stable sort by the comparator leaves them: a permutation of up, right, down, left, ordered by key and, among equal keys, by list position |
| Policy.ArgMax | game.js:933-937 | the stable descending sort's head is the first maximal score |
| Policy.ArgMin | game.js:850-856 | the stable ascending sort's head is the first minimal score |
| Policy.Filter | game.js:874-883 | a direction survives the filter exactly when it is listed and passes the test |
| Policy.Best | game.js:828-832 | the chosen token is listed and scores at least as high as every listed token |
| Policy.Lowest | game.js:815 | the chosen token is listed and scores at most as high as every listed token |
| Policy.SafeNeverReverses | game.js:874-883 | when the neck sits behind the head, no safe direction reverses the heading |
| Policy.GoodPatternIndex | game.js:751-764 | the first pattern whose direction is safe and whose rate exceeds 0.7, or none |
| Policy.InsertKeyed | game.js:774-800 | inserting into a key-sorted list adds exactly that entry and keeps it sorted |
| Policy.ConsKeyed | game.js:774-800 | an entry no later than every other entry can head a sorted list |
| Policy.SortKeyed | game.js:774-800 | the exploration pre-sort is a permutation and is ordered: self-avoiding first, then by distance to the edge |
| Policy.ExploreOrder | game.js:766-800 | four tokens, sorted by the pre-sort key in wall-through mode |
| Policy.ExploreOrderComplete | game.js:766-800 | every token appears in the exploration order |
| Policy.FindExplorationPath | game.js:746-833 | the result is empty exactly when starving, otherwise one token, safe whenever a safe token exists, and `right` when none is |
| Policy.ExploreFreely | game.js:803-832 | the free choice is safe when a safe token exists and `right` when none is |
| Policy.VisitedAddsNothing | game.js:803-812 | for a head on the board, the visited test never rejects a safe token |
| Policy.ExplorationFollowsPattern | game.js:751-764 | with a good pattern, exploration returns the direction of the first good pattern |
| Policy.ExplorationMinimisesBoundary | game.js:803-816 | without a good pattern, exploration returns a safe token of least boundary score |
| Policy.FreeExplorationMinimisesBoundary | game.js:803-816 | the free choice is a safe token of least boundary score |
| Policy.MinDistance | game.js:851-852 | the smallest wrapped distance to the targets is attained by some target and below all others |
| Policy.FindAlternativeEscape | game.js:836-857 | one token; when some token leads to a wrapped safe cell off the danger memory, the result does too and is closest to the targets; otherwise `right` |
| Policy.NearestFoods | game.js:951-964 | the nearest foods are exactly the foods at the minimal wrapped distance, and there is at least one |
| Policy.AtDistance | game.js:962-964 | the filter keeps exactly the foods at the given distance |
| Policy.Toward | game.js:978-981 | the fallback step is +1 exactly when the wrapped offset is at most 15, else -1 |
| Policy.FallbackMove | game.js:978-981 | the fallback move is the diagonal offset (dx, dy) with both parts ±1; its horizontal step is never 0, and it is +1 exactly when the wrapped x offset is at most 15; likewise the vertical step is +1 exactly when the wrapped y offset is at most 15 |
| Policy.StarvingFallback | game.js:976-986 | when the diagonal check cell is safe the move is horizontal (never up or down), right exactly toward the target; otherwise it is the alternative escape |
| Policy.FindBestFoodStarving | game.js:942-988 | no foods give the empty path; a non-empty result is a route to a nearest food, or in wall-through mode the fallback; in normal mode always a route to a food |
| Policy.SafeDirs | game.js:874-883 | the candidates are exactly the safe tokens |
| Policy.EscapeScore | game.js:884-932 | the score is at least the reachability bonus; in normal mode it is the (1.2-weighted for a snake over 25 cells) radius-5 free space plus that bonus; a wrapping move while in a loop scores at least 145 plus that bonus |
| Policy.ScoreEscapes | game.js:884-932 | each candidate's score is its escape score, with the reachability bonus exactly when its search found a path, and each such path is a real route from the neighbour to the first food (or the centre) |
| Policy.AiEscape | game.js:860-939 | the history is updated as `isInLoop` does; with no safe token the queued heading is kept; otherwise it becomes the move of the first safe token (in the order up, right, down, left) with the greatest actual score, where a token earns the reachability bonus only if a route from its neighbour really exists; hence also within the 25-point bonus of every safe token's score; never the reverse of a well-formed snake's heading |
| Policy.ReachBonus | game.js:925-930 | reaching the food (or the centre) adds exactly 25 to an escape score |
| Policy.ChosenWithinBonus | game.js:933-937 | the first best of the computed scores over the safe tokens is such a good escape |
| Policy.ChosenFirstBest | game.js:933-937 | the first greatest of the actual scores is the first best candidate |
| Policy.CrossesEdge | game.js:1120-1136 | only a non-empty path with a positive step limit can cross |
| Policy.CrossesEdgeLeaves | game.js:1120-1136 | the check answers yes exactly when one of the first min(k, path length) prefixes, replayed without wrapping, ends off the board |
| Policy.BoardRouteNeverCrosses | game.js:1120-1136 | a board-bound route never triggers the wall-through check |
| Policy.SuccessRate | game.js:1143 | the recorded rate lies in [1, 1.5] and exceeds 1 exactly for a wall-through path |
| Policy.RecordPattern | game.js:1144-1147 | the push adds exactly one pattern and never cuts; past 15 entries the list is sorted by rate, otherwise the pattern is appended |
| Policy.RejectionNeverPicksRandom | game.js:1030-1031 | with the counter restarting at 0 every decision, a rejected path always leads to the emergency escape |
| Policy.FoodCount | game.js:1203-1208 | at the crazy level 4 to 10 foods, even, 4 below score 1000 and 10 from 5000; otherwise one per difficulty level |
| Policy.FoodCountMonotone | game.js:1203-1208 | at the crazy level a higher score never gives fewer foods, and always more than a lower level |

## Left out

- Drawing, the DOM, the status indicators, timers, key handling (the
  `' '` pause key of `setNextDirection`) and the game loop are out of
  scope. They are I/O around the core.
- `generateFood` is a random generator. Only its food count is modelled;
  the foods it produces are the `refill` parameter of `Motion.MoveSnake`.
- The clock is the `now` parameter, so each call sees one fixed reading.
  The source may call `Date.now()` several times within one decision.
- `evaluateFood`, `calculateWallThroughBenefit` and the non-starving
  branch of `findBestFood` (game.js:989-1011) are not part of this model.
  They are weighted heuristics used only to rank foods.
- `getBoundaryScore` (game.js:680-743) is the `boundary` parameter of
  exploration, and the properties hold for any scoring.
- Search.AStarPath: the queue takes the first node of minimal f in
  insertion order. JavaScript's re-sorted array breaks ties among equal
  f differently, so ties may be explored in another order.
- Search.AStarPath: does not promise that a path is found whenever one
  exists, or that it is the cheapest. It promises only that what it
  returns is a safe route of at least the distance bound.
- Policy.ScoreEscapes: a missing bonus does not mean that no route
  exists, because A* has no completeness promise.
- Policy.AiEscape: the same holds for the bonus behind the chosen
  token's score.
- Policy.FindBestFoodStarving: does not state that the route is the
  shortest among those found.
- `aiMakeDecision` as a whole is not part of this model. That includes
  the random escape on an imminent collision (game.js:1036-1052),
  `validateDirection`, and the random choice among safe directions.
  Its pieces are modelled: the wall-through check, the success rate,
  the pattern push, the counter, and every function it calls.
- Floating-point rates and scores are exact reals.
- `auto_pack.py`, `create_icon.py` and `main.py` are packaging and
  launcher scripts, not part of the decision core.

=== FILE: game.dfy ===
/** The state the decision core reads, made explicit: everything the source
    keeps in closed-over variables (board mode, difficulty, score, snake,
    heading, queued heading, foods, last feeding time and the three
    memories) is one immutable record, and the clock is a parameter. */
module Game {
  import opened Grid

  /** `FORCE_FOOD_TIMEOUT`: milliseconds without food before starving. */
  const ForceFoodTimeout: int := 10000

  /** One danger-memory entry: a cell that caused a collision, with the
      time it was recorded (the set `dangerousPositions` together with the
      map `dangerousPositionsTimestamps`, always updated together). */
  datatype Danger = Danger(cell: Cell, time: int)

  /** One pattern-memory entry `[dir, successRate]`. */
  datatype Pattern = Pattern(dir: Dir, rate: real)

  /** One position-history record `{pos, dir}`; the source keys both as
      strings "x,y" and "dx,dy", which compare equal exactly when the
      integers do. */
  datatype Visit = Visit(pos: Cell, heading: Vec)

  datatype State = State(
    mode: Mode,
    difficulty: int,
    score: int,
    snake: seq<Cell>,        // head first, tail last
    heading: Vec,            // (dx, dy)
    next: Vec,               // (nextDx, nextDy)
    foods: seq<Cell>,
    lastFoodTime: int,
    danger: seq<Danger>,     // insertion order of the JavaScript Set
    patterns: seq<Pattern>,
    history: seq<Visit>)

  predicate Wrapping(st: State) {
    st.mode == WallThrough
  }

  /** Difficulty 4 is the hardest ('crazy') level. */
  predicate IsCrazy(st: State) {
    st.difficulty == 4
  }

  /** `Date.now() - lastFoodTime > FORCE_FOOD_TIMEOUT`, with the clock
      reading passed in. */
  predicate IsStarving(st: State, now: int) {
    now - st.lastFoodTime > ForceFoodTimeout
  }

  /** The cells held by a danger memory (the keys of `dangerousPositions`). */
  function DangerCells(mem: seq<Danger>): set<Cell> {
    set i | 0 <= i < |mem| :: mem[i].cell
  }

  /** `isSafe(x, y, checkDangerous)`: in wrap mode the cell is first brought
      onto the board with the double wrap; in normal mode an off-board cell
      is unsafe. A safe cell is not a snake cell and, when asked, not a cell
      in danger memory. */
  predicate IsSafe(st: State, x: int, y: int, checkDangerous: bool): (r: bool)
    ensures Wrapping(st) ==>
              (r <==> && Cell(x % N, y % N) !in st.snake
                      && (!checkDangerous || Cell(x % N, y % N) !in DangerCells(st.danger)))
    ensures !Wrapping(st) ==>
              (r <==> && InGrid(Cell(x, y)) && Cell(x, y) !in st.snake
                      && (!checkDangerous || Cell(x, y) !in DangerCells(st.danger)))
  {
    WrapTwiceIsModulus(x);
    WrapTwiceIsModulus(y);
    if !Wrapping(st) && !InGrid(Cell(x, y)) then false
    else
      var c := if Wrapping(st) then Cell(WrapTwice(x), WrapTwice(y)) else Cell(x, y);
      c !in st.snake && (!checkDangerous || c !in DangerCells(st.danger))
  }

  predicate IsSafeCell(st: State, c: Cell, checkDangerous: bool) {
    IsSafe(st, c.x, c.y, checkDangerous)
  }

  /** A safe board cell is free of the snake (and of danger memory when
      asked); in normal mode safety also implies being on the board. */
  lemma SafeMeansFree(st: State, c: Cell, checkDangerous: bool)
    requires IsSafeCell(st, c, checkDangerous)
    ensures !Wrapping(st) ==> InGrid(c)
    ensures InGrid(c) ==> c !in st.snake
    ensures InGrid(c) && checkDangerous ==> c !in DangerCells(st.danger)
  {
    if InGrid(c) && Wrapping(st) {
      WrapOnceAgrees(c.x);
      WrapOnceAgrees(c.y);
    }
  }

  /** Conversely a free board cell is safe, in either mode. */
  lemma FreeMeansSafe(st: State, c: Cell, checkDangerous: bool)
    requires InGrid(c) && c !in st.snake
    requires checkDangerous ==> c !in DangerCells(st.danger)
    ensures IsSafeCell(st, c, checkDangerous)
  {
    WrapOnceAgrees(c.x);
    WrapOnceAgrees(c.y);
  }

  /** In wrap mode safety is periodic: shifting a coordinate by a whole
      board side does not change the answer. */
  lemma SafePeriodic(st: State, x: int, y: int, checkDangerous: bool)
    requires Wrapping(st)
    ensures IsSafe(st, x + N, y, checkDangerous) == IsSafe(st, x, y, checkDangerous)
    ensures IsSafe(st, x, y + N, checkDangerous) == IsSafe(st, x, y, checkDangerous)
  {
    WrapTwiceIsModulus(x);
    WrapTwiceIsModulus(x + N);
    ShiftMod(x);
    WrapTwiceIsModulus(y);
    WrapTwiceIsModulus(y + N);
    ShiftMod(y);
  }
}

=== FILE: grid.dfy ===
/** Board geometry of the snake game: cells of the 30x30 board, headings,
    JavaScript's truncating remainder, the two wrap-around forms and the
    two distance metrics (Manhattan and wrapped Manhattan). */
module Grid {

  /** Side of the square board (`gridSize`). */
  const N: int := 30

  /** A board coordinate; off-board values are representable on purpose,
      because the source computes them before it checks or wraps them. */
  datatype Cell = Cell(x: int, y: int)

  /** 'normal' (walls are fatal) or 'wallThrough' (the board is a torus). */
  datatype Mode = Normal | WallThrough

  /** The direction tokens 'up', 'down', 'left' and 'right'. */
  datatype Dir = Up | Down | Left | Right

  /** A heading as the source stores it, the pair (dx, dy). */
  datatype Vec = Vec(dx: int, dy: int)

  /** The four tokens in the order the source lists them everywhere. */
  const AllDirs: seq<Dir> := [Up, Right, Down, Left]

  predicate InGrid(c: Cell) {
    0 <= c.x < N && 0 <= c.y < N
  }

  predicate IsUnit(v: Vec) {
    || (v.dx == 0 && (v.dy == 1 || v.dy == -1))
    || (v.dy == 0 && (v.dx == 1 || v.dx == -1))
  }

  function Opposite(v: Vec): Vec {
    Vec(-v.dx, -v.dy)
  }

  /** The (dx, dy) of a direction token; y grows downwards. */
  function DirVec(d: Dir): (v: Vec)
    ensures IsUnit(v)
    ensures d in {Up, Down} <==> v.dx == 0
  {
    match d
    case Up => Vec(0, -1)
    case Down => Vec(0, 1)
    case Left => Vec(-1, 0)
    case Right => Vec(1, 0)
  }

  /** The token of a heading, as `moveSnake` and `gameOver` name it:
      dx 1 is 'right', dx -1 is 'left', dy 1 is 'down', anything else 'up'. */
  function DirOf(v: Vec): (d: Dir)
    ensures IsUnit(v) ==> DirVec(d) == v
  {
    if v.dx == 1 then Right
    else if v.dx == -1 then Left
    else if v.dy == 1 then Down
    else Up
  }

  lemma DirVecInjective(d: Dir, e: Dir)
    ensures DirVec(d) == DirVec(e) <==> d == e
  {
  }

  /** JavaScript's `a % b` for b > 0: the remainder truncated toward zero,
      so its sign follows the dividend (unlike Dafny's Euclidean `%`). */
  function JsMod(a: int, b: int): (r: int)
    requires b > 0
    ensures -b < r < b
    ensures 0 <= a ==> 0 <= r && r == a % b
    ensures a <= 0 ==> r <= 0
    ensures (a - r) % b == 0
  {
    if a >= 0 then
      RemainderGap(a, b);
      a % b
    else
      RemainderGap(-a, b);
      -((-a) % b)
  }

  /** Taking the remainder away leaves a multiple of `b`, of either sign. */
  lemma RemainderGap(a: int, b: int)
    requires b > 0
    ensures (a - a % b) % b == 0 && (-(a - a % b)) % b == 0
  {
    var q := a / b;
    assert a - a % b == b * q;
    assert -(a - a % b) == b * -q;
    MultipleMod(b, q);
    MultipleMod(b, -q);
  }

  /** A multiple of `b` leaves no remainder. */
  lemma {:induction false} MultipleMod(b: int, m: int)
    requires b > 0
    ensures (b * m) % b == 0
  {
    var x := b * m;
    assert x == b * (x / b) + x % b;
    var d := m - x / b;
    assert b * d == x % b;
  }

  /** The single wrap `(v + gridSize) % gridSize` used by moves, the
      simulations, the free-space window and the search. */
  function WrapOnce(v: int): int {
    JsMod(v + N, N)
  }

  /** The double wrap `((v % gridSize) + gridSize) % gridSize` of `isSafe`. */
  function WrapTwice(v: int): int {
    JsMod(JsMod(v, N) + N, N)
  }

  /** The double wrap is a true modulus: it lands on the board for every
      input and agrees with the mathematical remainder. */
  lemma WrapTwiceIsModulus(v: int)
    ensures 0 <= WrapTwice(v) < N
    ensures WrapTwice(v) == v % N
  {
    if v < 0 {
      var m := (-v) % N;
      assert -v == N * ((-v) / N) + m;
      if m == 0 {
        assert v == N * (-((-v) / N));
      } else {
        assert v == N * (-((-v) / N) - 1) + (N - m);
      }
    }
  }

  lemma ShiftMod(v: int)
    ensures (v + N) % N == v % N
  {
    var q, r := v / N, v % N;
    assert v + N == N * (q + 1) + r;
  }

  /** The single wrap is correct only for inputs no lower than -N; on that
      range it agrees with the double wrap, and it leaves board values alone. */
  lemma WrapOnceAgrees(v: int)
    requires -N <= v
    ensures WrapOnce(v) == WrapTwice(v)
    ensures 0 <= WrapOnce(v) < N
    ensures 0 <= v < N ==> WrapOnce(v) == v
  {
    WrapTwiceIsModulus(v);
    ShiftMod(v);
    assert WrapOnce(v) == (v + N) % N;
  }

  /** Below -N the single wrap leaves the board: (-31 + 30) % 30 is -1 in
      JavaScript. */
  lemma WrapOnceLeavesBoardBelowMinusN()
    ensures WrapOnce(-N - 1) == -1
  {
  }

  /** The cell one step from `c` along `v`, wrapped with the single wrap when
      `wrap` holds and left as computed otherwise. */
  function Step(c: Cell, v: Vec, wrap: bool): Cell {
    var x := c.x + v.dx;
    var y := c.y + v.dy;
    if wrap then Cell(WrapOnce(x), WrapOnce(y)) else Cell(x, y)
  }

  /** A wrapped unit step from a board cell stays on the board and, on the
      axis it does not move along, keeps the coordinate. */
  lemma StepWrappedInGrid(c: Cell, d: Dir)
    requires InGrid(c)
    ensures InGrid(Step(c, DirVec(d), true))
    ensures DirVec(d).dx == 0 ==> Step(c, DirVec(d), true).x == c.x
    ensures DirVec(d).dy == 0 ==> Step(c, DirVec(d), true).y == c.y
  {
    var v := DirVec(d);
    WrapOnceAgrees(c.x + v.dx);
    WrapOnceAgrees(c.y + v.dy);
  }

  function Min(a: int, b: int): int {
    if a < b then a else b
  }

  /** `Math.min(x, gridSize-1-x, y, gridSize-1-y)`: how far a cell lies
      from the nearest board edge. */
  function EdgeDistance(c: Cell): int {
    Min(Min(c.x, N - 1 - c.x), Min(c.y, N - 1 - c.y))
  }

  function Abs(a: int): nat {
    if a < 0 then -a else a
  }

  function Manhattan(p: Cell, q: Cell): nat {
    Abs(p.x - q.x) + Abs(p.y - q.y)
  }

  /** Per-axis toroidal distance `min(|a - b|, gridSize - |a - b|)`. */
  function AxisDistance(a: int, b: int): int {
    var d := Abs(a - b);
    if d < N - d then d else N - d
  }

  /** `getWrappedDistance`: the per-axis toroidal distances summed. */
  function WrappedDistance(p: Cell, q: Cell): (r: int)
    ensures r <= Manhattan(p, q)
    ensures Abs(p.x - q.x) <= N && Abs(p.y - q.y) <= N ==> 0 <= r <= N
    ensures InGrid(p) && InGrid(q) ==> (r == 0 <==> p == q)
  {
    AxisDistance(p.x, q.x) + AxisDistance(p.y, q.y)
  }

  /** Between board cells the wrapped distance is a metric-like quantity:
      symmetric, at most 15 per axis, never above Manhattan distance, and
      zero exactly on equal cells. */
  lemma WrappedDistanceBasics(p: Cell, q: Cell)
    requires InGrid(p) && InGrid(q)
    ensures WrappedDistance(p, q) == WrappedDistance(q, p)
    ensures 0 <= WrappedDistance(p, q) <= N
    ensures WrappedDistance(p, q) <= Manhattan(p, q)
    ensures WrappedDistance(p, q) == 0 <==> p == q
  {
  }

  /** One wrapped axis move (a to (a +- 1) wrapped) changes the per-axis
      distance to a fixed board coordinate by at most one. */
  lemma AxisDistanceStep(a: int, t: int, s: int)
    requires 0 <= a < N && 0 <= t < N
    requires s == 1 || s == -1
    ensures AxisDistance(a, t) - 1 <= AxisDistance(WrapOnce(a + s), t) <= AxisDistance(a, t) + 1
  {
    WrapOnceAgrees(a + s);
  }

  /** A single wrapped unit step lowers the wrapped distance to a target by
      at most one, so no wrapped path is shorter than that distance. */
  lemma WrappedDistanceStep(p: Cell, t: Cell, d: Dir)
    requires InGrid(p) && InGrid(t)
    ensures WrappedDistance(Step(p, DirVec(d), true), t) >= WrappedDistance(p, t) - 1
  {
    var v := DirVec(d);
    StepWrappedInGrid(p, d);
    if v.dx == 0 {
      AxisDistanceStep(p.y, t.y, v.dy);
    } else {
      AxisDistanceStep(p.x, t.x, v.dx);
    }
  }

  /** An unwrapped unit step changes Manhattan distance by exactly one. */
  lemma ManhattanStep(p: Cell, t: Cell, d: Dir)
    ensures Manhattan(Step(p, DirVec(d), false), t) == Manhattan(p, t) + 1
         || Manhattan(Step(p, DirVec(d), false), t) == Manhattan(p, t) - 1
  {
  }
}

=== FILE: memory.dfy ===
/** The three bounded memories of the decision core: the position history
    used for loop detection, the time-stamped danger memory of collision
    cells, and the pattern memory of per-direction success rates. */
module Memory {
  import opened Grid
  import opened Game

  /** `MAX_HISTORY_LENGTH` and `LOOP_DETECTION_THRESHOLD`. */
  const MaxHistoryLength: int := 30
  const LoopDetectionThreshold: int := 8

  /** `MAX_DANGEROUS_RECORDS` and the 30-second expiry of danger entries. */
  const MaxDangerousRecords: int := 20
  const DangerTtl: int := 30000

  /** The pattern list is pruned once it holds more than 20 entries, down to
      the 15 best. */
  const MaxPatterns: int := 20
  const PatternsKept: int := 15

  // ---------------------------------------------------------------------
  // Position history (`isInLoop`)
  // ---------------------------------------------------------------------

  /** The verdict of `isInLoop` together with the history it leaves behind
      (the source mutates the history on every call). */
  datatype LoopCheck = LoopCheck(inLoop: bool, history: seq<Visit>)

  /** `isInLoop`: append the (head, heading) record, drop the oldest record
      when the history exceeds 30, and report a loop when the window holds
      the current record at least 8 times (`filter(...).length` is the
      multiplicity of the record). */
  function IsInLoop(history: seq<Visit>, head: Cell, heading: Vec): (r: LoopCheck)
    ensures |history| <= MaxHistoryLength ==> |r.history| <= MaxHistoryLength
    ensures |r.history| > 0 && r.history[|r.history| - 1] == Visit(head, heading)
    ensures r.inLoop ==> multiset(history)[Visit(head, heading)] >= LoopDetectionThreshold - 1
    ensures multiset(history)[Visit(head, heading)] >= LoopDetectionThreshold ==> r.inLoop
    ensures r.history == if |history| + 1 > MaxHistoryLength
                         then (history + [Visit(head, heading)])[1..]
                         else history + [Visit(head, heading)]
    ensures r.inLoop <==> multiset(r.history)[Visit(head, heading)] >= LoopDetectionThreshold
  {
    var rec := Visit(head, heading);
    var pushed := history + [rec];
    assert multiset(pushed) == multiset(history) + multiset{rec};
    if |pushed| > MaxHistoryLength then
      var kept := pushed[1..];
      assert pushed == [pushed[0]] + kept;
      assert multiset(pushed) == multiset{pushed[0]} + multiset(kept);
      LoopCheck(multiset(kept)[rec] >= LoopDetectionThreshold, kept)
    else
      LoopCheck(multiset(pushed)[rec] >= LoopDetectionThreshold, pushed)
  }

  /** Feeding the loop detector one record after another. */
  function Replay(history: seq<Visit>, visits: seq<Visit>): seq<Visit>
    decreases |visits|
  {
    if visits == [] then history
    else Replay(IsInLoop(history, visits[0].pos, visits[0].heading).history, visits[1..])
  }

  /** After the history is cleared (which `moveSnake` does on every meal) the
      detector cannot fire for the next seven calls, whatever they record:
      a loop needs at least seven earlier copies of the current record. */
  lemma {:induction false} NoLoopRightAfterReset(visits: seq<Visit>, v: Visit)
    requires |visits| < LoopDetectionThreshold - 1
    ensures !IsInLoop(Replay([], visits), v.pos, v.heading).inLoop
  {
    ReplayShort([], visits);
  }

  lemma {:induction false} ReplayShort(history: seq<Visit>, visits: seq<Visit>)
    requires |history| + |visits| <= MaxHistoryLength
    ensures |Replay(history, visits)| == |history| + |visits|
    decreases |visits|
  {
    if visits != [] {
      var next := IsInLoop(history, visits[0].pos, visits[0].heading).history;
      assert |next| == |history| + 1;
      ReplayShort(next, visits[1..]);
    }
  }

  // ---------------------------------------------------------------------
  // Danger memory (`checkCollision` recording, `trimDangerousPositions`)
  // ---------------------------------------------------------------------

  /** A JavaScript Set holds each key once. */
  predicate DistinctCells(mem: seq<Danger>) {
    forall i, j :: 0 <= i < j < |mem| ==> mem[i].cell != mem[j].cell
  }

  /** Give the entry of a known cell a new time, in place. */
  function Retime(mem: seq<Danger>, c: Cell, now: int): (r: seq<Danger>)
    requires c in DangerCells(mem)
    ensures |r| == |mem|
    ensures forall i :: 0 <= i < |mem| ==> r[i] == if mem[i].cell == c then Danger(c, now) else mem[i]
    ensures DangerCells(r) == DangerCells(mem)
    ensures Danger(c, now) in r
  {
    var r := seq(|mem|, i requires 0 <= i < |mem| =>
                    if mem[i].cell == c then Danger(c, now) else mem[i]);
    assert forall i :: 0 <= i < |mem| ==> r[i].cell == mem[i].cell;
    var k :| 0 <= k < |mem| && mem[k].cell == c;
    assert r[k] == Danger(c, now);
    r
  }

  /** Append the entry of a cell the memory does not hold yet. */
  function AppendDanger(mem: seq<Danger>, c: Cell, now: int): (r: seq<Danger>)
    ensures r == mem + [Danger(c, now)]
    ensures DangerCells(r) == DangerCells(mem) + {c}
  {
    var r := mem + [Danger(c, now)];
    assert forall i :: 0 <= i < |mem| ==> r[i] == mem[i];
    assert r[|mem|].cell == c;
    r
  }

  /** `dangerousPositions.add(key)` followed by `timestamps.set(key, now)`:
      a known cell keeps its place in insertion order and only its time
      changes; a new cell goes to the end. */
  function RecordDanger(mem: seq<Danger>, c: Cell, now: int): (r: seq<Danger>)
    ensures DangerCells(r) == DangerCells(mem) + {c}
    ensures forall e :: e in r && e.cell == c ==> e == Danger(c, now)
    ensures Danger(c, now) in r
    ensures forall e :: e in mem && e.cell != c ==> e in r
    ensures forall e :: e in r && e.cell != c ==> e in mem
    ensures |r| == |mem| + (if c in DangerCells(mem) then 0 else 1)
    ensures DistinctCells(mem) ==> DistinctCells(r)
  {
    if c in DangerCells(mem) then
      var r := Retime(mem, c, now);
      assert forall e :: e in r && e.cell != c ==> e in mem by {
        forall e | e in r && e.cell != c ensures e in mem {
          var i :| 0 <= i < |r| && r[i] == e;
          assert mem[i] == e;
        }
      }
      assert forall e :: e in mem && e.cell != c ==> e in r by {
        forall e | e in mem && e.cell != c ensures e in r {
          var i :| 0 <= i < |mem| && mem[i] == e;
          assert r[i] == e;
        }
      }
      r
    else
      var r := AppendDanger(mem, c, now);
      assert DistinctCells(mem) ==> DistinctCells(r) by {
        if DistinctCells(mem) {
          forall i, j | 0 <= i < j < |r| ensures r[i].cell != r[j].cell {
            if j == |mem| {
              assert r[i] == mem[i];
              assert mem[i].cell in DangerCells(mem);
            }
          }
        }
      }
      r
  }

  predicate Expired(e: Danger, now: int) {
    now - e.time > DangerTtl
  }

  /** The expiry pass: drop every entry older than 30 seconds, keeping the
      insertion order of the rest. */
  function Unexpired(mem: seq<Danger>, now: int): (r: seq<Danger>)
    ensures forall e :: e in r <==> e in mem && !Expired(e, now)
    ensures |r| <= |mem|
    ensures DistinctCells(mem) ==> DistinctCells(r)
  {
    if mem == [] then []
    else
      var rest := Unexpired(mem[1..], now);
      assert forall e :: e in mem <==> e == mem[0] || e in mem[1..];
      if Expired(mem[0], now) then rest
      else
        assert DistinctCells(mem) ==> forall j :: 0 <= j < |rest| ==> rest[j].cell != mem[0].cell by {
          if DistinctCells(mem) {
            forall j | 0 <= j < |rest| ensures rest[j].cell != mem[0].cell {
              assert rest[j] in mem[1..];
              var i :| 0 <= i < |mem[1..]| && mem[1..][i] == rest[j];
              assert mem[i + 1] == rest[j];
            }
          }
        }
        [mem[0]] + rest
  }

  /** Index of the first entry with the smallest time. */
  function OldestIndex(s: seq<Danger>): (k: nat)
    requires |s| > 0
    ensures k < |s|
    ensures forall j :: 0 <= j < |s| ==> s[k].time <= s[j].time
  {
    if |s| == 1 then 0
    else
      var k := OldestIndex(s[1..]);
      if s[0].time <= s[k + 1].time then 0 else k + 1
  }

  function RemoveAt(s: seq<Danger>, k: nat): (r: seq<Danger>)
    requires k < |s|
    ensures |r| == |s| - 1
    ensures forall e :: e in r ==> e in s
    ensures forall e :: e in s && e != s[k] ==> e in r
    ensures DistinctCells(s) ==> DistinctCells(r)
  {
    var r := s[..k] + s[k + 1..];
    assert s == s[..k] + [s[k]] + s[k + 1..];
    assert forall i :: 0 <= i < |r| ==> r[i] == if i < k then s[i] else s[i + 1];
    assert forall e :: e in s && e != s[k] ==> e in r by {
      forall e | e in s && e != s[k] ensures e in r {
        var i :| 0 <= i < |s| && s[i] == e;
        if i < k { assert r[i] == e; } else { assert r[i - 1] == e; }
      }
    }
    r
  }

  /** The size cap: sort by time ascending (stable) and delete the first
      `k`, which is the same as deleting the first oldest entry `k` times. */
  function DropOldest(s: seq<Danger>, k: nat): (r: seq<Danger>)
    requires k <= |s|
    ensures |r| == |s| - k
    ensures forall e :: e in r ==> e in s
    ensures DistinctCells(s) ==> DistinctCells(r)
    decreases k
  {
    if k == 0 then s else DropOldest(RemoveAt(s, OldestIndex(s)), k - 1)
  }

  /** Every entry the cap evicts is at least as old as every entry it keeps. */
  lemma {:induction false} EvictedNotNewer(s: seq<Danger>, k: nat, x: Danger, y: Danger)
    requires k <= |s|
    requires x in s && x !in DropOldest(s, k) && y in DropOldest(s, k)
    ensures x.time <= y.time
    decreases k
  {
    assert k != 0;
    var m := OldestIndex(s);
    var s' := RemoveAt(s, m);
    assert DropOldest(s, k) == DropOldest(s', k - 1);
    assert y in s';
    if x == s[m] {
      assert y in s;
      var j :| 0 <= j < |s| && s[j] == y;
      assert s[m].time <= s[j].time;
    } else {
      assert x in s';
      EvictedNotNewer(s', k - 1, x, y);
    }
  }

  /** `trimDangerousPositions(now)`: expiry first, then the size cap. */
  function TrimDanger(mem: seq<Danger>, now: int): (r: seq<Danger>)
    ensures forall e :: e in r ==> !Expired(e, now)
    ensures |r| <= MaxDangerousRecords
    ensures forall e :: e in r ==> e in mem
    ensures |Unexpired(mem, now)| <= MaxDangerousRecords ==>
              forall e :: e in mem && !Expired(e, now) ==> e in r
    ensures forall x, y :: x in mem && !Expired(x, now) && x !in r && y in r ==> x.time <= y.time
    ensures DistinctCells(mem) ==> DistinctCells(r)
    ensures |r| == if |Unexpired(mem, now)| > MaxDangerousRecords
                   then MaxDangerousRecords else |Unexpired(mem, now)|
  {
    var live := Unexpired(mem, now);
    if |live| > MaxDangerousRecords then
      var k := |live| - MaxDangerousRecords;
      var r := DropOldest(live, k);
      assert forall x, y :: x in mem && !Expired(x, now) && x !in r && y in r ==> x.time <= y.time by {
        forall x, y | x in mem && !Expired(x, now) && x !in r && y in r
          ensures x.time <= y.time
        {
          assert x in live;
          EvictedNotNewer(live, k, x, y);
        }
      }
      r
    else
      live
  }

  /** A freshly recorded cell survives the trim when every other entry is
      strictly older than it (the clock has moved on since they were
      recorded): expiry spares it, and the cap evicts older entries first. */
  lemma FreshEntrySurvives(mem: seq<Danger>, c: Cell, now: int)
    requires DistinctCells(mem)
    requires forall e :: e in mem ==> e.time < now
    ensures Danger(c, now) in TrimDanger(RecordDanger(mem, c, now), now)
  {
    var rec := RecordDanger(mem, c, now);
    var newest := Danger(c, now);
    var live := Unexpired(rec, now);
    assert newest in live;
    if |live| > MaxDangerousRecords {
      var r := TrimDanger(rec, now);
      assert |r| == MaxDangerousRecords;
      var y := r[0];
      assert y in rec;
      assert y == newest || y.time < now by {
        if y.cell == c {
          var i :| 0 <= i < |rec| && rec[i] == y;
          var j :| 0 <= j < |rec| && rec[j] == newest;
          assert i == j;
        } else {
          assert y in mem;
        }
      }
    }
  }

  // ---------------------------------------------------------------------
  // Pattern memory (`updateSafePatterns`)
  // ---------------------------------------------------------------------

  /** The exponential update `(3 * prev + s) / 4`, with s = 1 on a meal and
      0.5 otherwise. */
  function BlendRate(prev: real, success: bool): (r: real)
    ensures var s := if success then 1.0 else 0.5;
              (prev <= s ==> prev <= r <= s) && (s <= prev ==> s <= r <= prev)
  {
    (prev * 3.0 + (if success then 1.0 else 0.5)) / 4.0
  }

  /** The rate a direction gets when it first enters the list. */
  function FirstRate(success: bool): real {
    if success then 1.0 else 0.5
  }

  /** Index of the first entry for `dir`, or |ps| when there is none
      (`Array.prototype.find`). */
  function FindPattern(ps: seq<Pattern>, dir: Dir): (k: nat)
    ensures k <= |ps|
    ensures k < |ps| ==> ps[k].dir == dir
    ensures forall j :: 0 <= j < k ==> ps[j].dir != dir
  {
    if ps == [] then 0
    else if ps[0].dir == dir then 0
    else 1 + FindPattern(ps[1..], dir)
  }

  /** The update step before pruning: blend the first entry for `dir`, or
      append a new entry. */
  function BumpPattern(ps: seq<Pattern>, dir: Dir, success: bool): (r: seq<Pattern>)
    ensures var k := FindPattern(ps, dir);
              if k < |ps| then
                && |r| == |ps|
                && r[k] == Pattern(dir, BlendRate(ps[k].rate, success))
                && (forall i :: 0 <= i < |ps| && i != k ==> r[i] == ps[i])
              else
                r == ps + [Pattern(dir, FirstRate(success))]
  {
    var k := FindPattern(ps, dir);
    if k < |ps| then ps[k := Pattern(dir, BlendRate(ps[k].rate, success))]
    else ps + [Pattern(dir, FirstRate(success))]
  }

  predicate SortedByRate(s: seq<Pattern>) {
    forall i, j :: 0 <= i < j < |s| ==> s[i].rate >= s[j].rate
  }

  /** The first entry of a list sorted by rate has the highest rate. */
  lemma FirstIsBest(s: seq<Pattern>, q: Pattern)
    requires SortedByRate(s) && q in s
    ensures q.rate <= s[0].rate
  {
    var i :| 0 <= i < |s| && s[i] == q;
    if i > 0 {
      assert s[0].rate >= s[i].rate;
    }
  }


  /** Putting an entry with the highest rate in front keeps a list sorted. */
  lemma ConsSorted(h: Pattern, rest: seq<Pattern>)
    requires SortedByRate(rest)
    requires forall q :: q in rest ==> q.rate <= h.rate
    ensures SortedByRate([h] + rest)
  {
    var r := [h] + rest;
    forall i, j | 0 <= i < j < |r| ensures r[i].rate >= r[j].rate {
      assert r[j] == rest[j - 1];
      if i > 0 {
        assert r[i] == rest[i - 1];
      } else {
        assert rest[j - 1] in rest;
      }
    }
  }

  /** Insert `p` before the first entry whose rate is not above its own,
      so earlier entries stay ahead of later ones with the same rate. */
  function InsertByRate(p: Pattern, s: seq<Pattern>): (r: seq<Pattern>)
    requires SortedByRate(s)
    ensures |r| == |s| + 1
    ensures forall q :: q in r ==> q == p || q in s
    ensures SortedByRate(r)
    ensures multiset(r) == multiset(s) + multiset{p}
  {
    if s == [] || s[0].rate <= p.rate then
      InsertAtFront(p, s);
      [p] + s
    else
      var rest := InsertByRate(p, s[1..]);
      InsertBehind(p, s, rest);
      [s[0]] + rest
  }

  lemma InsertAtFront(p: Pattern, s: seq<Pattern>)
    requires SortedByRate(s)
    requires s == [] || s[0].rate <= p.rate
    ensures SortedByRate([p] + s)
  {
    forall q | q in s ensures q.rate <= p.rate {
      FirstIsBest(s, q);
    }
    ConsSorted(p, s);
  }

  lemma InsertBehind(p: Pattern, s: seq<Pattern>, rest: seq<Pattern>)
    requires SortedByRate(s) && |s| > 0 && p.rate < s[0].rate
    requires SortedByRate(rest)
    requires forall q :: q in rest ==> q == p || q in s[1..]
    requires multiset(rest) == multiset(s[1..]) + multiset{p}
    ensures SortedByRate([s[0]] + rest)
    ensures forall q :: q in [s[0]] + rest ==> q == p || q in s
    ensures multiset([s[0]] + rest) == multiset(s) + multiset{p}
  {
    forall q | q in rest ensures q.rate <= s[0].rate {
      if q != p {
        assert q in s;
        FirstIsBest(s, q);
      }
    }
    ConsSorted(s[0], rest);
    assert s == [s[0]] + s[1..];
  }

  /** `sort((a, b) => b[1] - a[1])`: a stable sort by rate, highest first. */
  function SortByRate(s: seq<Pattern>): (r: seq<Pattern>)
    ensures SortedByRate(r)
    ensures multiset(r) == multiset(s)
    ensures |r| == |s|
  {
    if s == [] then []
    else
      assert s == [s[0]] + s[1..];
      InsertByRate(s[0], SortByRate(s[1..]))
  }

  /** Keeping a prefix of a sorted permutation keeps the best entries. */
  lemma SortedPrefix(ps: seq<Pattern>, sorted: seq<Pattern>, k: nat)
    requires multiset(sorted) == multiset(ps) && SortedByRate(sorted)
    requires k <= |sorted|
    ensures multiset(sorted[..k]) <= multiset(ps)
    ensures forall x :: x in sorted[..k] ==> x in ps
    ensures forall x, y :: x in sorted[..k] && y in ps && y !in sorted[..k] ==> y.rate <= x.rate
  {
    var r := sorted[..k];
    assert sorted == r + sorted[k..];
    assert multiset(sorted) == multiset(r) + multiset(sorted[k..]);
    forall x | x in r ensures x in ps {
      assert x in multiset(r);
      assert x in multiset(ps);
    }
    forall x, y | x in r && y in ps && y !in r
      ensures y.rate <= x.rate
    {
      assert y in multiset(ps);
      assert y in multiset(sorted);
      var j :| 0 <= j < |sorted| && sorted[j] == y;
      var i :| 0 <= i < |r| && r[i] == x;
      assert j >= k;
      assert sorted[i].rate >= sorted[j].rate;
    }
  }

  /** The size rule: above 20 entries, sort by rate and keep the first 15. */
  function PrunePatterns(ps: seq<Pattern>): (r: seq<Pattern>)
    ensures |r| <= MaxPatterns
    ensures |ps| <= MaxPatterns ==> r == ps
    ensures |ps| > MaxPatterns ==> |r| == PatternsKept && SortedByRate(r)
    ensures multiset(r) <= multiset(ps)
    ensures forall x :: x in r ==> x in ps
    ensures forall x, y :: x in r && y in ps && y !in r ==> y.rate <= x.rate
  {
    if |ps| <= MaxPatterns then ps
    else
      var sorted := SortByRate(ps);
      SortedPrefix(ps, sorted, PatternsKept);
      sorted[..PatternsKept]
  }

  /** `updateSafePatterns(dir, isSuccess)`. */
  function UpdateSafePatterns(ps: seq<Pattern>, dir: Dir, success: bool): (r: seq<Pattern>)
    ensures |r| <= MaxPatterns
    ensures |ps| < MaxPatterns ==> r == BumpPattern(ps, dir, success)
  {
    PrunePatterns(BumpPattern(ps, dir, success))
  }

  /** All rates the source ever stores lie in [0.5, 1.5]: new entries get
      0.5 or 1.0 here, 1.0, 1.2 or 1.5 when a decision is recorded. */
  predicate RatesInRange(ps: seq<Pattern>) {
    forall i :: 0 <= i < |ps| ==> 0.5 <= ps[i].rate <= 1.5
  }

  lemma BumpKeepsRatesInRange(ps: seq<Pattern>, dir: Dir, success: bool)
    requires RatesInRange(ps)
    ensures RatesInRange(BumpPattern(ps, dir, success))
  {
    var b := BumpPattern(ps, dir, success);
    var k := FindPattern(ps, dir);
    if k < |ps| {
      assert 0.5 <= ps[k].rate <= 1.5;
      forall i | 0 <= i < |b| ensures 0.5 <= b[i].rate <= 1.5 {
        if i != k {
          assert b[i] == ps[i];
        }
      }
    } else {
      forall i | 0 <= i < |b| ensures 0.5 <= b[i].rate <= 1.5 {
        if i < |ps| {
          assert b[i] == ps[i];
        }
      }
    }
  }

  /** The update keeps every stored rate in [0.5, 1.5]. */
  lemma UpdateKeepsRatesInRange(ps: seq<Pattern>, dir: Dir, success: bool)
    requires RatesInRange(ps)
    ensures RatesInRange(UpdateSafePatterns(ps, dir, success))
  {
    var b := BumpPattern(ps, dir, success);
    BumpKeepsRatesInRange(ps, dir, success);
    var r := PrunePatterns(b);
    forall i | 0 <= i < |r| ensures 0.5 <= r[i].rate <= 1.5 {
      assert r[i] in b;
      var j :| 0 <= j < |b| && b[j] == r[i];
    }
  }
}

=== FILE: motion.dfy ===
/** The three state transitions of one game tick that the decision core
    relies on: queueing a heading (`setNextDirection`), advancing the snake
    (`moveSnake`) and detecting a collision (`checkCollision`). */
module Motion {
  import opened Grid
  import opened Game
  import opened Memory

  /** The turn guard shared by `setNextDirection` and both simulations: a
      vertical token is taken only while the heading has no vertical part,
      a horizontal one only while it has no horizontal part. */
  predicate Accepts(h: Vec, d: Dir) {
    match d
    case Up | Down => h.dy == 0
    case Left | Right => h.dx == 0
  }

  /** The simulations' heading update: take the token when the guard allows
      it, keep the heading otherwise. */
  function Turn(h: Vec, d: Dir): (r: Vec)
    ensures IsUnit(h) ==> IsUnit(r)
    ensures IsUnit(h) ==> r != Opposite(h)
    ensures r == h || r == DirVec(d)
  {
    if Accepts(h, d) then DirVec(d) else h
  }

  /** Turning is a no-op exactly when the token is refused or already the
      heading. */
  lemma TurnKeepsHeading(h: Vec, d: Dir)
    requires IsUnit(h)
    ensures Turn(h, d) == h <==> !Accepts(h, d) || DirVec(d) == h
  {
  }

  /** Heading sanity: both the heading and the queued heading are unit
      moves, and the queued one never reverses the heading. */
  predicate HeadingOk(st: State) {
    IsUnit(st.heading) && IsUnit(st.next) && st.next != Opposite(st.heading)
  }

  /** `setNextDirection(dir)` for the four direction tokens: the guard reads
      the current heading and the accepted token replaces the queued one. */
  function SetNextDirection(st: State, d: Dir): (r: State)
    ensures r == st.(next := r.next)
    ensures Accepts(st.heading, d) ==> r.next == DirVec(d)
    ensures !Accepts(st.heading, d) ==> r.next == st.next
    ensures HeadingOk(st) ==> HeadingOk(r)
  {
    if Accepts(st.heading, d) then st.(next := DirVec(d)) else st
  }

  /** For a unit heading, a token for the current direction or its
      reverse leaves the queued heading untouched, and any change the
      queue sees is a perpendicular turn. */
  lemma OnlyPerpendicularTurns(st: State, d: Dir)
    requires IsUnit(st.heading)
    ensures DirVec(d) == st.heading || DirVec(d) == Opposite(st.heading) ==> SetNextDirection(st, d) == st
    ensures SetNextDirection(st, d) != st ==>
              SetNextDirection(st, d).next == DirVec(d)
              && DirVec(d).dx * st.heading.dx + DirVec(d).dy * st.heading.dy == 0
  {
  }

  /** Queued tokens overwrite each other: of two tokens given before a move,
      the later one wins if it is accepted. */
  lemma LaterTokenWins(st: State, d: Dir, e: Dir)
    requires Accepts(st.heading, e)
    ensures SetNextDirection(SetNextDirection(st, d), e) == SetNextDirection(st, e)
  {
  }

  /** Index of the first food on cell `c`, or `|foods|` when none is
      (`foods.findIndex`). */
  function FoodIndex(foods: seq<Cell>, c: Cell): (k: nat)
    ensures k <= |foods|
    ensures k < |foods| ==> foods[k] == c
    ensures forall i :: 0 <= i < k ==> foods[i] != c
    ensures k < |foods| <==> c in foods
  {
    if foods == [] then 0
    else if foods[0] == c then 0
    else 1 + FoodIndex(foods[1..], c)
  }

  lemma FoodIndexFound(foods: seq<Cell>, c: Cell)
    ensures FoodIndex(foods, c) < |foods| <==> c in foods
  {
  }

  /** `splice(k, 1)`. */
  function RemoveFood(foods: seq<Cell>, k: nat): (r: seq<Cell>)
    requires k < |foods|
    ensures |r| == |foods| - 1
    ensures multiset(r) == multiset(foods) - multiset{foods[k]}
    ensures forall i :: 0 <= i < |r| ==> r[i] == if i < k then foods[i] else foods[i + 1]
  {
    assert foods == foods[..k] + [foods[k]] + foods[k + 1..];
    foods[..k] + foods[k + 1..]
  }

  /** Removing a food keeps the others in their order: taking the first of
      three foods leaves the second and third, in that order. */
  lemma RemoveFoodKeepsOrder(a: Cell, b: Cell, c: Cell)
    ensures RemoveFood([a, b, c], 0) == [b, c]
  {
    var r := RemoveFood([a, b, c], 0);
    assert r[0] == b && r[1] == c;
  }

  /** The head cell the next move produces. */
  function NextHead(st: State): Cell
    requires |st.snake| > 0
  {
    Step(st.snake[0], st.next, Wrapping(st))
  }

  /** Whether the next move lands on a food. */
  predicate Eats(st: State)
    requires |st.snake| > 0
  {
    NextHead(st) in st.foods
  }

  /** `moveSnake()`: commit the queued heading, step the head (wrapping in
      wall-through mode), then either eat the first food on the new head or
      drop the tail. `now` is the clock reading and `refill` the foods the
      generator would produce when the last food is eaten. */
  function MoveSnake(st: State, now: int, refill: seq<Cell>): (r: State)
    requires |st.snake| > 0
    ensures r.heading == st.next && r.next == st.next
    ensures |r.snake| > 0 && r.snake[0] == NextHead(st)
    ensures r.mode == st.mode && r.difficulty == st.difficulty && r.danger == st.danger
    ensures r.patterns == UpdateSafePatterns(st.patterns, DirOf(st.next), Eats(st))
    ensures Eats(st) ==>
              && r.snake[1..] == st.snake
              && r.score == st.score + 10 * st.difficulty
              && r.lastFoodTime == now
              && r.history == []
              && (|st.foods| == 1 ==> r.foods == refill)
              && (|st.foods| > 1 ==> multiset(r.foods) == multiset(st.foods) - multiset{NextHead(st)})
              && (|st.foods| > 1 ==> r.foods == RemoveFood(st.foods, FoodIndex(st.foods, NextHead(st))))
    ensures !Eats(st) ==>
              && r.snake[1..] == st.snake[..|st.snake| - 1]
              && r.score == st.score && r.foods == st.foods
              && r.lastFoodTime == st.lastFoodTime && r.history == st.history
  {
    var head := NextHead(st);
    var k := FoodIndex(st.foods, head);
    FoodIndexFound(st.foods, head);
    if k < |st.foods| then
      var left := RemoveFood(st.foods, k);
      st.(heading := st.next,
          snake := [head] + st.snake,
          score := st.score + 10 * st.difficulty,
          foods := if left == [] then refill else left,
          lastFoodTime := now,
          history := [],
          patterns := UpdateSafePatterns(st.patterns, DirOf(st.next), true))
    else
      st.(heading := st.next,
          snake := [head] + st.snake[..|st.snake| - 1],
          patterns := UpdateSafePatterns(st.patterns, DirOf(st.next), false))
  }

  /** A move grows the snake by one cell when it eats and keeps its length
      otherwise, and the score never falls at a non-negative difficulty. */
  lemma MoveLengthAndScore(st: State, now: int, refill: seq<Cell>)
    requires |st.snake| > 0
    ensures |MoveSnake(st, now, refill).snake| == |st.snake| + (if Eats(st) then 1 else 0)
    ensures st.difficulty >= 0 ==> MoveSnake(st, now, refill).score >= st.score
  {
    var r := MoveSnake(st, now, refill);
    assert |r.snake| == 1 + |r.snake[1..]|;
  }

  /** A move keeps heading sanity: after it the queued heading is the
      heading itself. */
  lemma MoveKeepsHeadingOk(st: State, now: int, refill: seq<Cell>)
    requires |st.snake| > 0 && HeadingOk(st)
    ensures HeadingOk(MoveSnake(st, now, refill))
  {
    var r := MoveSnake(st, now, refill);
    assert r.heading == st.next && r.next == st.next;
  }

  /** In wall-through mode a head on the board stays on the board. */
  lemma WrapMoveStaysOnBoard(st: State, now: int, refill: seq<Cell>)
    requires |st.snake| > 0 && Wrapping(st) && InGrid(st.snake[0]) && HeadingOk(st)
    ensures InGrid(MoveSnake(st, now, refill).snake[0])
  {
    StepWrappedInGrid(st.snake[0], DirOf(st.next));
  }

  /** The result of `checkCollision()`: whether the head hit something, and
      the state with danger memory updated. */
  datatype Collision = Collision(hit: bool, st: State)

  /** `checkCollision()`: the head meets a body cell (any cell after the
      first), or in normal mode lies off the board. A hit records the head
      cell in danger memory at time `now` and trims it. */
  function CheckCollision(st: State, now: int): (r: Collision)
    requires |st.snake| > 0
    ensures r.hit <==> st.snake[0] in st.snake[1..] || (!Wrapping(st) && !InGrid(st.snake[0]))
    ensures !r.hit ==> r.st == st
    ensures r.st == st.(danger := r.st.danger)
    ensures r.hit ==> forall e :: e in r.st.danger ==> !Expired(e, now)
    ensures r.hit ==> |r.st.danger| <= MaxDangerousRecords
    ensures r.hit && DistinctCells(st.danger) && (forall e :: e in st.danger ==> e.time < now) ==>
              Danger(st.snake[0], now) in r.st.danger
    ensures r.hit ==> r.st.danger == TrimDanger(RecordDanger(st.danger, st.snake[0], now), now)
    ensures r.hit ==> forall e :: e in r.st.danger ==> e in st.danger || e == Danger(st.snake[0], now)
    ensures r.hit && |st.danger| < MaxDangerousRecords ==>
              forall e :: e in st.danger && e.cell != st.snake[0] && !Expired(e, now) ==> e in r.st.danger
  {
    var head := st.snake[0];
    if head in st.snake[1..] || (!Wrapping(st) && !InGrid(head)) then
      var mem := TrimDanger(RecordDanger(st.danger, head, now), now);
      assert DistinctCells(st.danger) && (forall e :: e in st.danger ==> e.time < now) ==>
               Danger(head, now) in mem by {
        if DistinctCells(st.danger) && (forall e :: e in st.danger ==> e.time < now) {
          FreshEntrySurvives(st.danger, head, now);
        }
      }
      Collision(true, st.(danger := mem))
    else
      Collision(false, st)
  }

  /** After a move that does not eat, the snake dies exactly when the new
      head lands on a cell the old body keeps (every cell but the old tail)
      or, in normal mode, off the board: the tail cell is safe to enter. */
  lemma CollisionAfterMove(st: State, now: int, refill: seq<Cell>, t: int)
    requires |st.snake| > 0 && !Eats(st)
    ensures CheckCollision(MoveSnake(st, now, refill), t).hit <==>
              NextHead(st) in st.snake[..|st.snake| - 1] || (!Wrapping(st) && !InGrid(NextHead(st)))
  {
    var r := MoveSnake(st, now, refill);
    assert r.snake[1..] == st.snake[..|st.snake| - 1];
  }

  /** After a move that eats, the whole old body, tail included, is fatal. */
  lemma CollisionAfterMeal(st: State, now: int, refill: seq<Cell>, t: int)
    requires |st.snake| > 0 && Eats(st)
    ensures CheckCollision(MoveSnake(st, now, refill), t).hit <==>
              NextHead(st) in st.snake || (!Wrapping(st) && !InGrid(NextHead(st)))
  {
    var r := MoveSnake(st, now, refill);
    assert r.snake[1..] == st.snake;
  }
}

=== FILE: policy.dfy ===
/** The fallback policies of the decision core, as selections over the four
    direction tokens: exploration (`findExplorationPath`), the alternative
    escape (`findAlternativeEscape`), the emergency escape (`aiEscape`), the
    starving search for food with its wall-through fallback, and the
    bookkeeping the decision does around a committed path. */
module Policy {
  import opened Grid
  import opened Game
  import opened Space
  import opened Memory
  import opened Motion
  import opened Search

  // ---------------------------------------------------------------------
  // Selection
  // ---------------------------------------------------------------------

  /** The position of the first greatest score: what a stable sort by
      descending score puts in front. */
  function ArgMax(s: seq<real>): (k: nat)
    requires |s| > 0
    ensures k < |s|
    ensures forall j :: 0 <= j < |s| ==> s[j] <= s[k]
    ensures forall j :: 0 <= j < k ==> s[j] < s[k]
  {
    if |s| == 1 then 0
    else
      var k := ArgMax(s[1..]);
      if s[0] >= s[1 + k] then 0 else 1 + k
  }

  /** The position of the first least score: what a stable sort by
      ascending score puts in front. */
  function ArgMin(s: seq<real>): (k: nat)
    requires |s| > 0
    ensures k < |s|
    ensures forall j :: 0 <= j < |s| ==> s[k] <= s[j]
    ensures forall j :: 0 <= j < k ==> s[k] < s[j]
  {
    if |s| == 1 then 0
    else
      var k := ArgMin(s[1..]);
      if s[0] <= s[1 + k] then 0 else 1 + k
  }

  /** `Array.prototype.filter` on direction tokens. */
  function Filter(ds: seq<Dir>, keep: Dir -> bool): (r: seq<Dir>)
    ensures |r| <= |ds|
    ensures forall d :: d in r <==> d in ds && keep(d)
  {
    if ds == [] then []
    else (if keep(ds[0]) then [ds[0]] else []) + Filter(ds[1..], keep)
  }

  function Scores(ds: seq<Dir>, score: Dir -> real): (r: seq<real>)
    ensures |r| == |ds|
    ensures forall i :: 0 <= i < |ds| ==> r[i] == score(ds[i])
  {
    seq(|ds|, i requires 0 <= i < |ds| => score(ds[i]))
  }

  /** The first token with the greatest score. */
  function Best(ds: seq<Dir>, score: Dir -> real): (d: Dir)
    requires |ds| > 0
    ensures d in ds
    ensures forall e :: e in ds ==> score(e) <= score(d)
  {
    ds[ArgMax(Scores(ds, score))]
  }

  /** The first token with the least score. */
  function Lowest(ds: seq<Dir>, score: Dir -> real): (d: Dir)
    requires |ds| > 0
    ensures d in ds
    ensures forall e :: e in ds ==> score(d) <= score(e)
  {
    ds[ArgMin(Scores(ds, score))]
  }

  /** Every token is one of the four the policies try. */
  lemma InAllDirs(d: Dir)
    ensures d in AllDirs
  {
    match d
    case Up => assert AllDirs[0] == d;
    case Right => assert AllDirs[1] == d;
    case Down => assert AllDirs[2] == d;
    case Left => assert AllDirs[3] == d;
  }

  // ---------------------------------------------------------------------
  // Neighbours
  // ---------------------------------------------------------------------

  /** The neighbour a token leads to, wrapped once in wall-through mode. */
  function Ahead(st: State, head: Cell, d: Dir): Cell {
    Step(head, DirVec(d), Wrapping(st))
  }

  /** The neighbour wrapped once in either mode, `(x + dx + gridSize) % gridSize`. */
  function AheadWrapped(head: Cell, d: Dir): Cell {
    Step(head, DirVec(d), true)
  }

  /** The neighbour `isSafe` accepts (danger memory not consulted). */
  predicate SafeAhead(st: State, head: Cell, d: Dir) {
    IsSafeCell(st, Ahead(st, head, d), false)
  }

  /** A safe neighbour is never the neck: with the second cell right behind
      the head, no safe token reverses the heading. */
  lemma SafeNeverReverses(st: State, d: Dir)
    requires |st.snake| >= 2 && IsUnit(st.heading)
    requires st.snake[1] == Step(st.snake[0], Opposite(st.heading), Wrapping(st))
    requires !Wrapping(st) || InGrid(st.snake[0])
    requires SafeAhead(st, st.snake[0], d)
    ensures DirVec(d) != Opposite(st.heading)
  {
    var head := st.snake[0];
    var n := Ahead(st, head, d);
    if Wrapping(st) {
      StepWrappedInGrid(head, d);
    }
    SafeMeansFree(st, n, false);
    assert n != st.snake[1] by {
      assert st.snake[1] in st.snake;
    }
  }

  // ---------------------------------------------------------------------
  // Exploration
  // ---------------------------------------------------------------------

  /** A remembered pattern worth following: its direction is safe and its
      success rate exceeds 0.7. */
  predicate GoodPattern(st: State, head: Cell, p: Pattern) {
    SafeAhead(st, head, p.dir) && p.rate > 0.7
  }

  /** The position of the first good pattern, or `|ps|` when none is. */
  function GoodPatternIndex(st: State, head: Cell, ps: seq<Pattern>): (k: nat)
    ensures k <= |ps|
    ensures k < |ps| ==> GoodPattern(st, head, ps[k])
    ensures forall j :: 0 <= j < k ==> !GoodPattern(st, head, ps[j])
  {
    if ps == [] then 0
    else if GoodPattern(st, head, ps[0]) then 0
    else 1 + GoodPatternIndex(st, head, ps[1..])
  }

  /** Whether the wrapped neighbour is free of the snake. */
  predicate AvoidsSelf(st: State, head: Cell, d: Dir) {
    AheadWrapped(head, d) !in st.snake
  }

  /** The sort key of the wall-through pre-sort: whether the wrapped
      neighbour is free of the snake, and its distance from the edge. */
  datatype Key = Key(free: bool, edge: int)

  /** A token paired with its key. */
  datatype Keyed = Keyed(dir: Dir, key: Key)

  function ExploreKey(st: State, head: Cell, d: Dir): Key {
    Key(AvoidsSelf(st, head, d), EdgeDistance(AheadWrapped(head, d)))
  }

  /** The comparator, as "strictly before": tokens into a free cell first,
      then the one nearer an edge. */
  predicate Precedes(a: Key, b: Key) {
    (a.free && !b.free) || (a.free == b.free && a.edge < b.edge)
  }

  predicate SortedKeys(s: seq<Keyed>) {
    forall i, j :: 0 <= i < j < |s| ==> !Precedes(s[j].key, s[i].key)
  }

  /** Insert an entry in front of every entry it does not follow. */
  function InsertKeyed(e: Keyed, s: seq<Keyed>): (r: seq<Keyed>)
    requires SortedKeys(s)
    ensures multiset(r) == multiset(s) + multiset{e}
    ensures SortedKeys(r)
  {
    if s == [] || !Precedes(s[0].key, e.key) then
      [e] + s
    else
      var rest := InsertKeyed(e, s[1..]);
      assert s == [s[0]] + s[1..];
      assert forall x :: x in rest ==> x == e || x in s[1..] by {
        forall x | x in rest
          ensures x == e || x in s[1..]
        {
          assert x in multiset(rest);
        }
      }
      ConsKeyed(s[0], rest);
      [s[0]] + rest
  }

  /** An entry no later entry precedes can head a sorted list. */
  lemma ConsKeyed(h: Keyed, rest: seq<Keyed>)
    requires SortedKeys(rest)
    requires forall x :: x in rest ==> !Precedes(x.key, h.key)
    ensures SortedKeys([h] + rest)
  {
    var r := [h] + rest;
    forall i, j | 0 <= i < j < |r|
      ensures !Precedes(r[j].key, r[i].key)
    {
      if i == 0 {
        assert r[j] in rest;
      }
    }
  }

  /** The stable sort the source runs on the four tokens in wall-through
      mode: each entry goes in front of the sorted later ones it does not
      follow, so equal keys keep their original order. */
  function SortKeyed(s: seq<Keyed>): (r: seq<Keyed>)
    ensures multiset(r) == multiset(s)
    ensures SortedKeys(r)
  {
    if s == [] then []
    else
      assert s == [s[0]] + s[1..];
      InsertKeyed(s[0], SortKeyed(s[1..]))
  }

  function WithKeys(st: State, head: Cell, ds: seq<Dir>): (r: seq<Keyed>)
    ensures |r| == |ds|
    ensures forall i :: 0 <= i < |ds| ==> r[i] == Keyed(ds[i], ExploreKey(st, head, ds[i]))
  {
    seq(|ds|, i requires 0 <= i < |ds| => Keyed(ds[i], ExploreKey(st, head, ds[i])))
  }

  function Tokens(s: seq<Keyed>): (r: seq<Dir>)
    ensures |r| == |s|
    ensures forall i :: 0 <= i < |s| ==> r[i] == s[i].dir
  {
    seq(|s|, i requires 0 <= i < |s| => s[i].dir)
  }

  /** The order exploration tries the tokens in: up, right, down, left,
      pre-sorted by key in wall-through mode. */
  function ExploreOrder(st: State, head: Cell): (r: seq<Dir>)
    ensures |r| == |AllDirs|
    ensures Wrapping(st) ==> forall i, j :: 0 <= i < j < |r| ==>
              !Precedes(ExploreKey(st, head, r[j]), ExploreKey(st, head, r[i]))
  {
    if Wrapping(st) then
      var sorted := SortKeyed(WithKeys(st, head, AllDirs));
      assert forall i :: 0 <= i < |sorted| ==> sorted[i].key == ExploreKey(st, head, sorted[i].dir) by {
        forall i | 0 <= i < |sorted|
          ensures sorted[i].key == ExploreKey(st, head, sorted[i].dir)
        {
          assert sorted[i] in multiset(WithKeys(st, head, AllDirs));
        }
      }
      Tokens(sorted)
    else AllDirs
  }

  /** Every token appears in the exploration order. */
  lemma ExploreOrderComplete(st: State, head: Cell, d: Dir)
    ensures d in ExploreOrder(st, head)
  {
    InAllDirs(d);
    if Wrapping(st) {
      var keyed := WithKeys(st, head, AllDirs);
      var sorted := SortKeyed(keyed);
      var i :| 0 <= i < |AllDirs| && AllDirs[i] == d;
      assert keyed[i] in multiset(sorted);
      var j :| 0 <= j < |sorted| && sorted[j] == keyed[i];
      assert ExploreOrder(st, head)[j] == d;
    }
  }

  /** `snake.slice(0, 60)`, the cells exploration treats as visited. */
  function Visited(st: State): seq<Cell> {
    st.snake[..Min(60, |st.snake|)]
  }

  /** Free space around the wrapped neighbour, radius 3: the fallback sort key. */
  function RoomAhead(st: State, head: Cell, d: Dir): real {
    FreeSpace(st, AheadWrapped(head, d), st.snake, 3)
  }

  /** `findExplorationPath(head)` with the clock reading `now` and the
      boundary score `getBoundaryScore(dir, head)` as a parameter: nothing
      while starving; else the first good remembered pattern; else the
      choice of `ExploreFreely`. The token is safe whenever a safe one
      exists. */
  function FindExplorationPath(st: State, now: int, head: Cell, boundary: Dir -> real): (r: seq<Dir>)
    ensures IsStarving(st, now) <==> r == []
    ensures |r| <= 1
    ensures r != [] && (exists d :: SafeAhead(st, head, d)) ==> SafeAhead(st, head, r[0])
    ensures r != [] && (forall d :: !SafeAhead(st, head, d)) ==> r == [Right]
  {
    if IsStarving(st, now) then []
    else
      var k := GoodPatternIndex(st, head, st.patterns);
      if k < |st.patterns| then [st.patterns[k].dir]
      else [ExploreFreely(st, head, boundary)]
  }

  /** Exploration without a good pattern: the safe unvisited token with
      the least boundary score; else the safe token with the most room;
      else `right`. */
  function ExploreFreely(st: State, head: Cell, boundary: Dir -> real): (d: Dir)
    ensures (exists e :: SafeAhead(st, head, e)) ==> SafeAhead(st, head, d)
    ensures (forall e :: !SafeAhead(st, head, e)) ==> d == Right
  {
    var dirs := ExploreOrder(st, head);
    var unvisited := Filter(dirs, d => SafeAhead(st, head, d) && !(Ahead(st, head, d) in Visited(st)));
    if |unvisited| > 0 then Lowest(unvisited, boundary)
    else
      var safe := Filter(dirs, d => SafeAhead(st, head, d));
      assert (exists e :: SafeAhead(st, head, e)) ==> |safe| > 0 by {
        if e :| SafeAhead(st, head, e) {
          ExploreOrderComplete(st, head, e);
          assert e in safe;
        }
      }
      if |safe| > 0 then Best(safe, d => RoomAhead(st, head, d))
      else Right
  }

  /** A safe neighbour is never among the visited cells (in wall-through
      mode when the head is on the board): the visited test adds nothing
      to `isSafe`. */
  lemma VisitedAddsNothing(st: State, head: Cell, d: Dir)
    requires !Wrapping(st) || InGrid(head)
    requires SafeAhead(st, head, d)
    ensures Ahead(st, head, d) !in Visited(st)
  {
    var n := Ahead(st, head, d);
    if Wrapping(st) {
      StepWrappedInGrid(head, d);
    }
    SafeMeansFree(st, n, false);
    assert forall c :: c in Visited(st) ==> c in st.snake;
  }

  /** Exploration follows the first good remembered pattern. */
  lemma ExplorationFollowsPattern(st: State, now: int, head: Cell, boundary: Dir -> real)
    requires !IsStarving(st, now)
    requires exists p :: p in st.patterns && GoodPattern(st, head, p)
    ensures exists k :: 0 <= k < |st.patterns| && FindExplorationPath(st, now, head, boundary) == [st.patterns[k].dir]
              && GoodPattern(st, head, st.patterns[k])
              && forall j :: 0 <= j < k ==> !GoodPattern(st, head, st.patterns[j])
  {
    var k := GoodPatternIndex(st, head, st.patterns);
    var p :| p in st.patterns && GoodPattern(st, head, p);
    assert k < |st.patterns|;
  }

  /** Without a good pattern (in wall-through mode from a board cell),
      exploration picks the safe token with the least boundary score. */
  lemma ExplorationMinimisesBoundary(st: State, now: int, head: Cell, boundary: Dir -> real)
    requires !IsStarving(st, now)
    requires !Wrapping(st) || InGrid(head)
    requires forall p :: p in st.patterns ==> !GoodPattern(st, head, p)
    requires exists d :: SafeAhead(st, head, d)
    ensures var r := FindExplorationPath(st, now, head, boundary);
            SafeAhead(st, head, r[0]) && forall d :: SafeAhead(st, head, d) ==> boundary(r[0]) <= boundary(d)
  {
    FreeExplorationMinimisesBoundary(st, head, boundary);
  }

  lemma FreeExplorationMinimisesBoundary(st: State, head: Cell, boundary: Dir -> real)
    requires !Wrapping(st) || InGrid(head)
    requires exists d :: SafeAhead(st, head, d)
    ensures var d := ExploreFreely(st, head, boundary);
            SafeAhead(st, head, d) && forall e :: SafeAhead(st, head, e) ==> boundary(d) <= boundary(e)
  {
    var dirs := ExploreOrder(st, head);
    var unvisited := Filter(dirs, d => SafeAhead(st, head, d) && !(Ahead(st, head, d) in Visited(st)));
    forall d | SafeAhead(st, head, d)
      ensures d in unvisited
    {
      ExploreOrderComplete(st, head, d);
      VisitedAddsNothing(st, head, d);
    }
  }

  // ---------------------------------------------------------------------
  // Alternative escape
  // ---------------------------------------------------------------------

  /** The least wrapped distance from `p` to a target (`Math.min(...)`). */
  function MinDistance(p: Cell, targets: seq<Cell>): (r: int)
    requires |targets| > 0
    ensures exists t :: t in targets && r == WrappedDistance(p, t)
    ensures forall t :: t in targets ==> r <= WrappedDistance(p, t)
  {
    if |targets| == 1 then
      assert targets[0] in targets;
      WrappedDistance(p, targets[0])
    else
      var rest := MinDistance(p, targets[1..]);
      assert targets == [targets[0]] + targets[1..];
      if WrappedDistance(p, targets[0]) <= rest then WrappedDistance(p, targets[0]) else rest
  }

  /** The token's escape target is acceptable: `isSafe` with danger memory
      on the wrapped neighbour. */
  predicate EscapeOk(st: State, head: Cell, d: Dir) {
    IsSafeCell(st, AheadWrapped(head, d), true)
  }

  /** The alternative escape's sort key: least wrapped distance from the
      unwrapped neighbour to the targets. With no targets every key is
      `Infinity` and the comparator answers `NaN`, which leaves the order
      unchanged; a constant key does the same. */
  function Reach(head: Cell, d: Dir, targets: seq<Cell>): real {
    if targets == [] then 0.0 else MinDistance(Step(head, DirVec(d), false), targets) as real
  }

  /** `findAlternativeEscape(head, targets)`: among the tokens whose
      wrapped neighbour is safe from the snake and from danger memory, the
      first closest to a target; `right` when none is. */
  function FindAlternativeEscape(st: State, head: Cell, targets: seq<Cell>): (r: seq<Dir>)
    ensures |r| == 1
    ensures (exists d :: EscapeOk(st, head, d)) ==>
              EscapeOk(st, head, r[0]) &&
              forall d :: EscapeOk(st, head, d) ==> Reach(head, r[0], targets) <= Reach(head, d, targets)
    ensures (forall d :: !EscapeOk(st, head, d)) ==> r == [Right]
  {
    var valid := Filter(AllDirs, d => EscapeOk(st, head, d));
    assert forall d :: EscapeOk(st, head, d) ==> d in valid by {
      forall d | EscapeOk(st, head, d)
        ensures d in valid
      {
        InAllDirs(d);
      }
    }
    if |valid| > 0 then [Lowest(valid, d => Reach(head, d, targets))] else [Right]
  }

  // ---------------------------------------------------------------------
  // Starving search for food
  // ---------------------------------------------------------------------

  /** The foods at the least wrapped distance from the head, in order. */
  function NearestFoods(head: Cell, foods: seq<Cell>): (r: seq<Cell>)
    requires |foods| > 0
    ensures |r| > 0
    ensures forall t :: t in r <==> t in foods && WrappedDistance(head, t) == MinDistance(head, foods)
  {
    var m := MinDistance(head, foods);
    var r := AtDistance(head, foods, m);
    var t :| t in foods && m == WrappedDistance(head, t);
    assert t in r;
    r
  }

  function AtDistance(head: Cell, foods: seq<Cell>, m: int): (r: seq<Cell>)
    ensures forall t :: t in r <==> t in foods && WrappedDistance(head, t) == m
  {
    if foods == [] then []
    else (if WrappedDistance(head, foods[0]) == m then [foods[0]] else []) + AtDistance(head, foods[1..], m)
  }

  /** The step toward a coordinate `delta` ahead on the torus: back when
      it lies more than half the board ahead, forward otherwise. */
  function Toward(delta: int): (r: int)
    ensures r == 1 || r == -1
    ensures r == 1 <==> delta <= N / 2
  {
    if delta > N / 2 then -1 else 1
  }

  /** The `(dx, dy)` the fallback steers by: each axis toward the target
      the short way round (`(target - head + gridSize) % gridSize` against
      half the board). */
  function FallbackMove(head: Cell, target: Cell): (v: Vec)
    ensures v.dx == 1 || v.dx == -1
    ensures v.dx == 1 <==> JsMod(target.x - head.x + N, N) <= N / 2
    ensures v.dy == 1 || v.dy == -1
    ensures v.dy == 1 <==> JsMod(target.y - head.y + N, N) <= N / 2
  {
    Vec(Toward(JsMod(target.x - head.x + N, N)), Toward(JsMod(target.y - head.y + N, N)))
  }

  /** The token the fallback move picks: horizontal when its x step is
      non-zero, vertical otherwise. */
  function FallbackToken(v: Vec): (d: Dir)
    ensures v.dx > 0 ==> d == Right
    ensures v.dx < 0 ==> d == Left
  {
    if v.dx != 0 then (if v.dx > 0 then Right else Left) else (if v.dy > 0 then Down else Up)
  }

  /** The wall-through fallback of the starving search: head horizontally
      toward the first nearest food (the horizontal step is never 0, so the
      vertical branch is dead), unless the diagonal cell `(x+dx, y+dy)` is
      unsafe, in which case the alternative escape decides. */
  function StarvingFallback(st: State, head: Cell, targets: seq<Cell>): (r: seq<Dir>)
    requires |targets| > 0
    ensures |r| == 1
    ensures var v := FallbackMove(head, targets[0]);
            IsSafe(st, head.x + v.dx, head.y + v.dy, true) ==>
              && r[0] != Up && r[0] != Down
              && (r[0] == Right <==> JsMod(targets[0].x - head.x + N, N) <= N / 2)
    ensures var v := FallbackMove(head, targets[0]);
            !IsSafe(st, head.x + v.dx, head.y + v.dy, true) ==> r == FindAlternativeEscape(st, head, targets)
  {
    var v := FallbackMove(head, targets[0]);
    var guess := FallbackToken(v);
    if !IsSafe(st, head.x + v.dx, head.y + v.dy, true) then FindAlternativeEscape(st, head, targets)
    else [guess]
  }

  /** The starving branch of `findBestFood(head)`: nothing without food;
      otherwise the shortest non-empty wrapping search result toward a
      nearest food (the first one on ties), and in wall-through mode the
      fallback when every search fails. */
  method FindBestFoodStarving(st: State, now: int, head: Cell)
    returns (path: seq<Dir>)
    ensures st.foods == [] ==> path == []
    ensures st.foods != [] && path != [] ==>
              || (exists t :: t in st.foods && WrappedDistance(head, t) == MinDistance(head, st.foods)
                             && Route(st, Wrapping(st), head, t, path))
              || (Wrapping(st) && path == StarvingFallback(st, head, NearestFoods(head, st.foods)))
    ensures !Wrapping(st) && path != [] ==>
              exists t :: t in st.foods && Route(st, false, head, t, path)
  {
    if |st.foods| == 0 {
      return [];
    }
    var nearest := NearestFoods(head, st.foods);
    path := [];
    ghost var goal: Cell := head;
    var i := 0;
    while i < |nearest|
      invariant 0 <= i <= |nearest|
      invariant path != [] ==> goal in nearest && Route(st, Wrapping(st), head, goal, path)
    {
      var p := AStarPath(st, now, head, nearest[i], true, Unbounded);
      if |p| > 0 && (path == [] || |p| < |path|) {
        path := p;
        goal := nearest[i];
      }
      i := i + 1;
    }
    if |path| == 0 && Wrapping(st) {
      path := StarvingFallback(st, head, nearest);
    }
  }

  // ---------------------------------------------------------------------
  // Emergency escape
  // ---------------------------------------------------------------------

  /** The result of `aiEscape()`: the queued heading it leaves (written
      directly, bypassing the turn guard) and the position history its
      `isInLoop()` call leaves. */
  datatype Escape = Escape(next: Vec, history: seq<Visit>)

  /** The score `aiEscape` gives a safe token: free space around the
      neighbour (radius 5, weighted 1.2 for a snake longer than 25), 25
      when a search from there reaches the first food (or the board
      centre), a wrap bonus by snake length (higher when the unwrapped cell
      is a snake cell), 120 more for a wrap while in a loop, and 15 for a
      wall-through neighbour within 3 cells of an edge. */
  function EscapeScore(st: State, head: Cell, d: Dir, inLoop: bool, reachable: bool): (r: real)
    ensures r >= (if reachable then 25.0 else 0.0)
    ensures !Wrapping(st) ==>
              r == (if |st.snake| > 25 then 1.2 else 1.0) * FreeSpace(st, Step(head, DirVec(d), false), st.snake, 5)
                   + (if reachable then 25.0 else 0.0)
    ensures Wrapping(st) && inLoop && Step(head, DirVec(d), false) != Ahead(st, head, d) ==>
              r >= 145.0 + (if reachable then 25.0 else 0.0)
  {
    FreeSpaceRange(st, Ahead(st, head, d), st.snake, 5);
    var pos := Ahead(st, head, d);
    var raw := Step(head, DirVec(d), false);
    var wrapped := Wrapping(st) && raw != pos;
    var hitsBody := raw in st.snake;
    var long := |st.snake| > 15;
    var veryLong := |st.snake| > 25;
    var space := FreeSpace(st, pos, st.snake, 5);
    var wrapBonus :=
      if !wrapped then 0.0
      else if veryLong then (if hitsBody then 80.0 else 60.0)
      else if long then (if hitsBody then 60.0 else 40.0)
      else (if hitsBody then 40.0 else 25.0);
    var loopBonus := if wrapped && inLoop then 120.0 else 0.0;
    var boundaryBonus := if Wrapping(st) && EdgeDistance(pos) < 3 then 15.0 else 0.0;
    var pathSafety := if reachable then 25.0 else 0.0;
    var spaceWeight := if veryLong then 1.2 * space else space;
    spaceWeight + pathSafety + wrapBonus + loopBonus + boundaryBonus
  }

  /** `aiEscape()` with the clock reading `now` as a parameter: score
      every safe token and queue the first best; with no safe token the
      queued heading stays. The loop check inside always updates the
      position history. `found` tells, per safe token in the order up,
      right, down, left, whether its search found a path (so it earned the
      reachability bonus); every such path exists. A well-formed snake is
      never sent backwards. */
  method AiEscape(st: State, now: int) returns (r: Escape, ghost found: seq<bool>)
    requires |st.snake| > 0
    ensures r.history == IsInLoop(st.history, st.snake[0], st.heading).history
    ensures (forall d :: !SafeAhead(st, st.snake[0], d)) ==> r.next == st.next
    ensures (exists d :: SafeAhead(st, st.snake[0], d)) ==>
              exists d :: && GoodEscape(st, st.snake[0], IsInLoop(st.history, st.snake[0], st.heading).inLoop, d)
                          && r.next == DirVec(d)
    ensures EscapesFound(st, st.snake[0], SafeDirs(st, st.snake[0]), found)
    ensures |SafeDirs(st, st.snake[0])| > 0 ==>
              exists k :: && FirstBest(st, st.snake[0], IsInLoop(st.history, st.snake[0], st.heading).inLoop,
                                       SafeDirs(st, st.snake[0]), found, k)
                          && r.next == DirVec(SafeDirs(st, st.snake[0])[k])
    ensures && |st.snake| >= 2 && HeadingOk(st)
            && st.snake[1] == Step(st.snake[0], Opposite(st.heading), Wrapping(st))
            && (!Wrapping(st) || InGrid(st.snake[0]))
            ==> r.next != Opposite(st.heading)
  {
    var head := st.snake[0];
    var loop := IsInLoop(st.history, head, st.heading);
    var cands := SafeDirs(st, head);
    var scores;
    scores, found := ScoreEscapes(st, now, head, cands, loop.inLoop);
    if |cands| > 0 {
      var k := ArgMax(scores);
      var d := cands[k];
      ChosenWithinBonus(st, head, cands, loop.inLoop, scores, k);
      ChosenFirstBest(st, head, cands, loop.inLoop, scores, found, k);
      if |st.snake| >= 2 && IsUnit(st.heading)
         && st.snake[1] == Step(head, Opposite(st.heading), Wrapping(st))
         && (!Wrapping(st) || InGrid(head)) {
        SafeNeverReverses(st, d);
      }
      r := Escape(DirVec(d), loop.history);
    } else {
      r := Escape(st.next, loop.history);
    }
  }

  /** Where `aiEscape` searches to from each neighbour: the first food, or
      the board centre when there is none. */
  function EscapeTarget(st: State): Cell {
    if |st.foods| > 0 then st.foods[0] else Cell(N / 2, N / 2)
  }

  /** Some non-empty path leads from `from` to `to` through enterable cells
      (with the wrap whenever the mode has it). */
  ghost predicate Reachable(st: State, from: Cell, to: Cell) {
    exists p :: p != [] && Route(st, Wrapping(st), from, to, p)
  }

  /** One flag per candidate; a raised flag means a path really exists from
      the candidate's neighbour to the escape target. */
  ghost predicate EscapesFound(st: State, head: Cell, cands: seq<Dir>, found: seq<bool>) {
    && |found| == |cands|
    && forall i :: 0 <= i < |cands| && found[i] ==> Reachable(st, Ahead(st, head, cands[i]), EscapeTarget(st))
  }

  /** Candidate `k` has the greatest actual escape score (the bonus counted
      where the search found a path), and every earlier candidate scores
      strictly less: the one a stable descending sort puts first. */
  predicate FirstBest(st: State, head: Cell, inLoop: bool, cands: seq<Dir>, found: seq<bool>, k: int) {
    && |found| == |cands| && 0 <= k < |cands|
    && forall i :: 0 <= i < |cands| ==>
         && EscapeScore(st, head, cands[i], inLoop, found[i]) <= EscapeScore(st, head, cands[k], inLoop, found[k])
         && (i < k ==> EscapeScore(st, head, cands[i], inLoop, found[i]) < EscapeScore(st, head, cands[k], inLoop, found[k]))
  }

  /** `d` scored with the reachability bonus is at least `e` scored
      without it: since the searches have no completeness promise, this is
      how close to the best the chosen escape provably is. */
  predicate WithinBonus(st: State, head: Cell, inLoop: bool, d: Dir, e: Dir) {
    EscapeScore(st, head, e, inLoop, false) <= EscapeScore(st, head, d, inLoop, true)
  }

  /** A safe token whose score with the reachability bonus is at least
      every safe token's score without it. */
  predicate GoodEscape(st: State, head: Cell, inLoop: bool, d: Dir) {
    SafeAhead(st, head, d) && forall e :: SafeAhead(st, head, e) ==> WithinBonus(st, head, inLoop, d, e)
  }

  /** The reachability bonus adds exactly 25 to a score. */
  lemma ReachBonus(st: State, head: Cell, d: Dir, inLoop: bool)
    ensures EscapeScore(st, head, d, inLoop, true) == EscapeScore(st, head, d, inLoop, false) + 25.0
  {
  }

  /** Over the safe candidates, the first best of the scores
      `ScoreEscapes` produces is a good escape. */
  lemma ChosenWithinBonus(st: State, head: Cell, cands: seq<Dir>, inLoop: bool, scores: seq<real>, k: nat)
    requires |scores| == |cands| && k < |cands|
    requires forall i :: 0 <= i < |cands| ==>
               scores[i] == EscapeScore(st, head, cands[i], inLoop, false) ||
               scores[i] == EscapeScore(st, head, cands[i], inLoop, true)
    requires forall j :: 0 <= j < |scores| ==> scores[j] <= scores[k]
    requires forall e :: e in cands <==> SafeAhead(st, head, e)
    ensures GoodEscape(st, head, inLoop, cands[k])
  {
    forall e | e in cands
      ensures WithinBonus(st, head, inLoop, cands[k], e)
    {
      var j :| 0 <= j < |cands| && cands[j] == e;
      ReachBonus(st, head, cands[j], inLoop);
      ReachBonus(st, head, cands[k], inLoop);
    }
  }

  /** The first greatest of scores that are the actual escape scores is
      the first best candidate. */
  lemma ChosenFirstBest(st: State, head: Cell, cands: seq<Dir>, inLoop: bool, scores: seq<real>,
                        found: seq<bool>, k: nat)
    requires |scores| == |cands| == |found| && k < |cands|
    requires forall i :: 0 <= i < |cands| ==> scores[i] == EscapeScore(st, head, cands[i], inLoop, found[i])
    requires forall j :: 0 <= j < |scores| ==> scores[j] <= scores[k]
    requires forall j :: 0 <= j < k ==> scores[j] < scores[k]
    ensures FirstBest(st, head, inLoop, cands, found, k)
  {
  }

  /** The safe tokens in the order up, right, down, left. */
  function SafeDirs(st: State, head: Cell): (r: seq<Dir>)
    ensures forall d :: d in r <==> SafeAhead(st, head, d)
  {
    var r := Filter(AllDirs, d => SafeAhead(st, head, d));
    assert forall d :: SafeAhead(st, head, d) ==> d in r by {
      forall d | SafeAhead(st, head, d)
        ensures d in r
      {
        InAllDirs(d);
      }
    }
    r
  }

  /** The escape scores of the candidate tokens, each with a search from
      its neighbour to the escape target; `found` records which searches
      returned a path, and each of those paths is a real route. */
  method ScoreEscapes(st: State, now: int, head: Cell, cands: seq<Dir>, inLoop: bool)
    returns (scores: seq<real>, ghost found: seq<bool>)
    ensures |scores| == |cands|
    ensures forall i :: 0 <= i < |cands| ==>
              scores[i] == EscapeScore(st, head, cands[i], inLoop, false) ||
              scores[i] == EscapeScore(st, head, cands[i], inLoop, true)
    ensures EscapesFound(st, head, cands, found)
    ensures forall i :: 0 <= i < |cands| ==> scores[i] == EscapeScore(st, head, cands[i], inLoop, found[i])
  {
    var target := EscapeTarget(st);
    scores, found := [], [];
    var i := 0;
    while i < |cands|
      invariant 0 <= i <= |cands| && |scores| == i && |found| == i
      invariant forall j :: 0 <= j < i ==> scores[j] == EscapeScore(st, head, cands[j], inLoop, found[j])
      invariant forall j :: 0 <= j < i && found[j] ==> Reachable(st, Ahead(st, head, cands[j]), target)
    {
      var p := AStarPath(st, now, Ahead(st, head, cands[i]), target, true, Unbounded);
      if |p| > 0 {
        assert Route(st, Wrapping(st), Ahead(st, head, cands[i]), target, p);
      }
      scores := scores + [EscapeScore(st, head, cands[i], inLoop, |p| > 0)];
      found := found + [|p| > 0];
      i := i + 1;
    }
  }

  // ---------------------------------------------------------------------
  // Bookkeeping around a committed decision
  // ---------------------------------------------------------------------

  /** Whether the first five tokens of a path, replayed without wrapping,
      leave the board at some step (the wall-through check before a
      pattern is recorded). */
  function CrossesEdge(c: Cell, path: seq<Dir>, k: nat): (r: bool)
    ensures r ==> 0 < k && path != []
    decreases k
  {
    if k == 0 || path == [] then false
    else
      var n := Step(c, DirVec(path[0]), false);
      !InGrid(n) || CrossesEdge(n, path[1..], k - 1)
  }

  /** The check answers yes exactly when one of the first `k` prefixes of
      the path, replayed without wrapping, ends off the board. */
  lemma {:induction false} CrossesEdgeLeaves(c: Cell, path: seq<Dir>, k: nat)
    ensures CrossesEdge(c, path, k) <==>
              exists i :: 1 <= i <= k && i <= |path| && !InGrid(Search.Replay(false, c, path[..i]))
    decreases k
  {
    if k > 0 && path != [] {
      var n := Step(c, DirVec(path[0]), false);
      CrossesEdgeLeaves(n, path[1..], k - 1);
      forall i | 1 <= i <= |path|
        ensures Search.Replay(false, c, path[..i]) == Search.Replay(false, n, path[1..][..i - 1])
      {
        assert path[..i][0] == path[0];
        assert path[..i][1..] == path[1..][..i - 1];
      }
      if !InGrid(n) {
        assert path[1..][..0] == [];
        assert !InGrid(Search.Replay(false, c, path[..1]));
      }
      if CrossesEdge(n, path[1..], k - 1) {
        var j :| 1 <= j <= k - 1 && j <= |path[1..]| && !InGrid(Search.Replay(false, n, path[1..][..j]));
        assert !InGrid(Search.Replay(false, c, path[..j + 1]));
      }
      if exists i :: 1 <= i <= k && i <= |path| && !InGrid(Search.Replay(false, c, path[..i])) {
        var i :| 1 <= i <= k && i <= |path| && !InGrid(Search.Replay(false, c, path[..i]));
        if i > 1 {
          assert !InGrid(Search.Replay(false, n, path[1..][..i - 1]));
        } else {
          assert path[1..][..0] == [];
        }
      }
    }
  }

  /** A path a board-bound search returns never crosses an edge. */
  lemma {:induction false} BoardRouteNeverCrosses(st: State, c: Cell, path: seq<Dir>, k: nat)
    requires SafeWalk(st, false, c, path)
    ensures !CrossesEdge(c, path, k)
    decreases k
  {
    if k > 0 && path != [] {
      BoardRouteNeverCrosses(st, Advance(false, c, path[0]), path[1..], k - 1);
    }
  }

  /** The success rate recorded for a committed path: 1.5 for a
      wall-through path when the board-bound path to the nearest food is
      risky, 1.2 for any other wall-through path, 1.0 otherwise. */
  function SuccessRate(crossesEdge: bool, boundPathRisky: bool): (r: real)
    ensures 1.0 <= r <= 1.5
    ensures r > 1.0 <==> crossesEdge
  {
    if crossesEdge then (if boundPathRisky then 1.5 else 1.2) else 1.0
  }

  /** Pattern lists longer than this are sorted after a push. */
  const MaxRecordedPatterns: int := 15

  /** The pattern push after a committed decision: append the pair; past
      15 entries the list is sorted by rate in place, and the `slice(0, 15)`
      result is thrown away, so nothing is ever cut. */
  function RecordPattern(ps: seq<Pattern>, d: Dir, rate: real): (r: seq<Pattern>)
    ensures |r| == |ps| + 1
    ensures multiset(r) == multiset(ps) + multiset{Pattern(d, rate)}
    ensures |ps| + 1 > MaxRecordedPatterns ==> SortedByRate(r)
    ensures |ps| + 1 <= MaxRecordedPatterns ==> r[..|ps|] == ps && r[|ps|] == Pattern(d, rate)
  {
    var pushed := ps + [Pattern(d, rate)];
    if |pushed| > MaxRecordedPatterns then SortByRate(pushed) else pushed
  }

  /** What the decision does after rejecting its path. */
  datatype Fallback = RandomSafeDirection | EmergencyEscape

  const MaxDecisionAttempts: int := 10

  /** The rejected-path branch given the attempt count it starts from: the
      count is incremented once and the random safe direction is taken
      only when it reaches `MaxDecisionAttempts`. */
  function AfterRejection(attempts: int): (r: Fallback)
    ensures r == RandomSafeDirection <==> attempts + 1 >= MaxDecisionAttempts
  {
    if attempts + 1 >= MaxDecisionAttempts then RandomSafeDirection else EmergencyEscape
  }

  /** The counter is declared afresh (at 0) on every decision, so every
      rejection sees a count of 1 and the random safe direction is never
      taken: a rejected path always ends in the emergency escape. */
  lemma RejectionNeverPicksRandom()
    ensures AfterRejection(0) == EmergencyEscape
    ensures AfterRejection(MaxDecisionAttempts - 1) == RandomSafeDirection
  {
  }

  // ---------------------------------------------------------------------
  // Food count
  // ---------------------------------------------------------------------

  /** `generateFood`'s food count: at the crazy level 4, 6, 8 or 10 foods
      as the score reaches 1000, 2500, 5000; otherwise one food per
      difficulty level. */
  function FoodCount(difficulty: int, score: int): (r: int)
    ensures difficulty == 4 ==> 4 <= r <= 10 && r % 2 == 0
    ensures difficulty == 4 && score < 1000 ==> r == 4
    ensures difficulty == 4 && score >= 5000 ==> r == 10
    ensures difficulty != 4 ==> r == difficulty
  {
    if difficulty == 4 then
      (if score >= 5000 then 10 else if score >= 2500 then 8 else if score >= 1000 then 6 else 4)
    else difficulty
  }

  /** At the crazy level a higher score never yields fewer foods, and it
      always yields more than any lower level. */
  lemma FoodCountMonotone(s1: int, s2: int, difficulty: int)
    requires s1 <= s2
    ensures FoodCount(4, s1) <= FoodCount(4, s2)
    ensures 1 <= difficulty <= 3 ==> FoodCount(difficulty, s2) < FoodCount(4, s1)
  {
  }
}

=== FILE: search.dfy ===
/** The best-first path search `aStarPath` and its path reconstruction
    `reconstructPath`. Cells are the search keys; the step costs and
    heuristics are the source's, and so is the order in which the
    wall-through search tries directions. */
module Search {
  import opened Grid
  import opened Game
  import opened Space

  /** `maxSteps`: unlimited (`Infinity`, the default) or a number of pops. */
  datatype Budget = Unbounded | AtMost(limit: int)

  predicate Allows(b: Budget, steps: int) {
    b.Unbounded? || steps < b.limit
  }

  /** A `cameFrom` entry: the cell the search came from and the token. */
  datatype Link = Link(prev: Cell, dir: Dir)

  /** One search step: the single wrap applies when the search wraps. */
  function Advance(wrap: bool, c: Cell, d: Dir): Cell {
    Step(c, DirVec(d), wrap)
  }

  /** A cell the search may enter: on the board unless the search wraps,
      and accepted by `isSafe` (danger memory not consulted). */
  predicate Enterable(st: State, wrap: bool, c: Cell) {
    (wrap || InGrid(c)) && IsSafe(st, c.x, c.y, false)
  }

  /** The cell a path leads to. */
  function Replay(wrap: bool, c: Cell, path: seq<Dir>): Cell
    decreases path
  {
    if path == [] then c else Replay(wrap, Advance(wrap, c, path[0]), path[1..])
  }

  /** Every cell a path enters may be entered. */
  predicate SafeWalk(st: State, wrap: bool, c: Cell, path: seq<Dir>)
    decreases path
  {
    path == [] ||
    (Enterable(st, wrap, Advance(wrap, c, path[0])) && SafeWalk(st, wrap, Advance(wrap, c, path[0]), path[1..]))
  }

  /** What a found path promises: it leads from `start` to `target`,
      enters only enterable cells, and is no shorter than the distance
      between its ends (Manhattan distance on the board, wrapped distance
      in a wrapping search between board cells). */
  predicate Route(st: State, wrap: bool, start: Cell, target: Cell, path: seq<Dir>) {
    && Replay(wrap, start, path) == target
    && SafeWalk(st, wrap, start, path)
    && (!wrap ==> |path| >= Manhattan(start, target))
    && (wrap && InGrid(start) && InGrid(target) ==> |path| >= WrappedDistance(start, target))
  }

  // ---------------------------------------------------------------------
  // Costs and heuristics
  // ---------------------------------------------------------------------

  /** `getHeuristic(pos, target)`: Manhattan distance (doubled while
      starving) plus 10 / (free space of radius 3 around `pos` + 1). */
  function GetHeuristic(st: State, now: int, pos: Cell, target: Cell): real {
    var m := Manhattan(pos, target) as real;
    var spaceWeight := 10.0 / (FreeSpace(st, pos, st.snake, 3) + 1.0);
    (if IsStarving(st, now) then 2.0 * m else m) + spaceWeight
  }

  /** The heuristic of a neighbour: wrapped distance when the search wraps,
      `getHeuristic` otherwise. */
  function NeighbourHeuristic(st: State, now: int, n: Cell, target: Cell, wrap: bool): real {
    if wrap then WrappedDistance(n, target) as real else GetHeuristic(st, now, n, target)
  }

  /** The heuristic of the start cell, chosen by the board mode alone. */
  function StartHeuristic(st: State, now: int, start: Cell, target: Cell): real {
    if Wrapping(st) then WrappedDistance(start, target) as real else GetHeuristic(st, now, start, target)
  }

  /** The step cost: 1, except for a move across the board edge in a
      wrapping search, which costs 0.3 while starving, else 0.4 / 0.6 / 0.8
      for a snake longer than 25 / longer than 15 / shorter, times 0.7 when
      the target lies within 3 cells of an edge. */
  function StepCost(st: State, now: int, target: Cell, cur: Cell, d: Dir, wrap: bool): real {
    var v := DirVec(d);
    var crossing := !InGrid(Cell(cur.x + v.dx, cur.y + v.dy)) && wrap;
    if !crossing then 1.0
    else
      var base :=
        if IsStarving(st, now) then 0.3
        else if |st.snake| > 25 then 0.4
        else if |st.snake| > 15 then 0.6
        else 0.8;
      if EdgeDistance(target) < 3 then base * 0.7 else base
  }

  /** `gScore.get(key) || 0`. */
  function GetOrZero(g: map<Cell, real>, c: Cell): real {
    if c in g then g[c] else 0.0
  }

  /** `t < (gScore.get(key) || Infinity)`: a missing or zero entry counts
      as infinity. */
  predicate Improves(t: real, g: map<Cell, real>, c: Cell) {
    c !in g || g[c] == 0.0 || t < g[c]
  }

  // ---------------------------------------------------------------------
  // Search invariants
  // ---------------------------------------------------------------------

  /** The cells a search can ever hold: its start and the box of
      coordinates strictly between -N and N, which holds the board and
      every result of the single wrap. */
  function Universe(start: Cell): set<Cell> {
    (set x: int, y: int | -N < x < N && -N < y < N :: Cell(x, y)) + {start}
  }

  predicate InBox(c: Cell) {
    -N < c.x < N && -N < c.y < N
  }

  /** Membership in `Universe(start)`, stated without the set. */
  predicate InUniverse(start: Cell, c: Cell) {
    InBox(c) || c == start
  }

  lemma BoxInUniverse(c: Cell, start: Cell)
    requires InBox(c)
    ensures c in Universe(start)
  {
    assert c == Cell(c.x, c.y);
  }

  predicate DistinctQueue(q: seq<Cell>) {
    forall i, j :: 0 <= i < j < |q| ==> q[i] != q[j]
  }

  /** Every link joins its cell to a closed cell by one step into an
      enterable cell. */
  predicate LinksValid(st: State, wrap: bool, came: map<Cell, Link>, rank: map<Cell, nat>) {
    forall n :: n in came ==>
      came[n].prev in rank && Advance(wrap, came[n].prev, came[n].dir) == n && Enterable(st, wrap, n)
  }

  /** A closed cell's link points to a cell closed before it, and closing
      ranks are below the number of pops. */
  predicate RanksValid(came: map<Cell, Link>, rank: map<Cell, nat>, count: nat) {
    && (forall n :: n in came && n in rank ==> came[n].prev in rank && rank[came[n].prev] < rank[n])
    && (forall c :: c in rank ==> rank[c] < count)
  }

  /** Every open or closed cell but the start has a link. */
  predicate Covered(start: Cell, queue: seq<Cell>, came: map<Cell, Link>, rank: map<Cell, nat>) {
    && (forall c :: c in rank ==> c == start || c in came)
    && (forall c :: c in queue ==> c == start || c in came)
  }

  /** The open queue: distinct cells with f-scores, none closed, all in the
      universe. */
  predicate QueueValid(start: Cell, queue: seq<Cell>, f: map<Cell, real>, closed: set<Cell>) {
    && DistinctQueue(queue)
    && (forall c :: c in queue ==> c in f && c !in closed && InUniverse(start, c))
  }

  predicate SearchInv(st: State, wrap: bool, start: Cell, queue: seq<Cell>, f: map<Cell, real>,
                      closed: set<Cell>, came: map<Cell, Link>, rank: map<Cell, nat>, count: nat) {
    && QueueValid(start, queue, f, closed)
    && closed == rank.Keys
    && LinksValid(st, wrap, came, rank)
    && RanksValid(came, rank, count)
    && Covered(start, queue, came, rank)
  }

  // ---------------------------------------------------------------------
  // The search
  // ---------------------------------------------------------------------

  /** `reconstructPath(cameFrom, current)`: follow the links back and
      collect their tokens front to back. It ends because every link
      leads to a cell closed earlier than the one it leaves. */
  method ReconstructPath(st: State, wrap: bool, came: map<Cell, Link>, current: Cell,
                         ghost start: Cell, ghost rank: map<Cell, nat>, ghost count: nat)
    returns (path: seq<Dir>)
    requires LinksValid(st, wrap, came, rank) && RanksValid(came, rank, count)
    requires forall c :: c in rank ==> c == start || c in came
    requires current == start || current in came
    ensures Replay(wrap, start, path) == current
    ensures SafeWalk(st, wrap, start, path)
    ensures current != start ==> path != []
  {
    var cur := current;
    path := [];
    while cur in came
      invariant cur == current || cur in rank
      invariant Replay(wrap, cur, path) == current
      invariant SafeWalk(st, wrap, cur, path)
      invariant cur != current ==> path != []
      decreases if cur in rank then rank[cur] else count
    {
      var link := came[cur];
      assert Advance(wrap, link.prev, link.dir) == cur;
      path := [link.dir] + path;
      cur := link.prev;
    }
  }

  /** The position of the first open cell with the least f-score (the
      front of the source's queue sorted by f). */
  method PickMin(queue: seq<Cell>, f: map<Cell, real>) returns (m: nat)
    requires |queue| > 0 && forall c :: c in queue ==> c in f
    ensures m < |queue|
    ensures forall j :: 0 <= j < |queue| ==> f[queue[m]] <= f[queue[j]]
    ensures forall j :: 0 <= j < m ==> f[queue[j]] > f[queue[m]]
  {
    m := 0;
    var i := 1;
    while i < |queue|
      invariant 1 <= i <= |queue| && m < i
      invariant forall j :: 0 <= j < i ==> f[queue[m]] <= f[queue[j]]
      invariant forall j :: 0 <= j < m ==> f[queue[j]] > f[queue[m]]
    {
      if f[queue[i]] < f[queue[m]] {
        m := i;
      }
      i := i + 1;
    }
  }

  /** The neighbour the source computes for token `d`, or None when the
      search skips it (off the board outside a wrapping search). */
  function Neighbour(st: State, consider: bool, cur: Cell, d: Dir): (r: Option<Cell>)
    ensures r.Some? ==> r.value == Advance(Wrapping(st) && consider, cur, d)
    ensures r.None? <==> !consider && !InGrid(Cell(cur.x + DirVec(d).dx, cur.y + DirVec(d).dy))
  {
    var v := DirVec(d);
    var raw := Cell(cur.x + v.dx, cur.y + v.dy);
    if Wrapping(st) && consider then Some(Cell(WrapOnce(raw.x), WrapOnce(raw.y)))
    else if !consider && !InGrid(raw) then None
    else Some(raw)
  }

  datatype Option<T> = None | Some(value: T)

  /** Linking an enterable, unclosed neighbour to a closed cell keeps
      every search invariant but the queue's. */
  lemma LinkKeepsInv(st: State, wrap: bool, start: Cell, queue: seq<Cell>, f: map<Cell, real>,
                     closed: set<Cell>, came: map<Cell, Link>, rank: map<Cell, nat>, count: nat,
                     cur: Cell, d: Dir, n: Cell, h: real)
    requires SearchInv(st, wrap, start, queue, f, closed, came, rank, count)
    requires cur in closed && n !in closed && InUniverse(start, n)
    requires Advance(wrap, cur, d) == n && Enterable(st, wrap, n)
    ensures var q := if n in queue then queue else queue + [n];
            SearchInv(st, wrap, start, q, f[n := h], closed, came[n := Link(cur, d)], rank, count)
  {
    var came' := came[n := Link(cur, d)];
    LinkKeepsLinks(st, wrap, came, rank, cur, d, n);
    LinkKeepsRanks(came, rank, count, cur, d, n);
    var q := if n in queue then queue else queue + [n];
    EnqueueKeepsQueue(start, queue, f, closed, n, h);
    assert forall c :: c in q ==> c in queue || c == n;
    assert Covered(start, q, came', rank);
  }

  lemma LinkKeepsLinks(st: State, wrap: bool, came: map<Cell, Link>, rank: map<Cell, nat>, cur: Cell, d: Dir, n: Cell)
    requires LinksValid(st, wrap, came, rank)
    requires cur in rank && Advance(wrap, cur, d) == n && Enterable(st, wrap, n)
    ensures LinksValid(st, wrap, came[n := Link(cur, d)], rank)
  {
  }

  lemma LinkKeepsRanks(came: map<Cell, Link>, rank: map<Cell, nat>, count: nat, cur: Cell, d: Dir, n: Cell)
    requires RanksValid(came, rank, count)
    requires cur in rank && n !in rank
    ensures RanksValid(came[n := Link(cur, d)], rank, count)
  {
  }

  lemma EnqueueKeepsQueue(start: Cell, queue: seq<Cell>, f: map<Cell, real>, closed: set<Cell>, n: Cell, h: real)
    requires QueueValid(start, queue, f, closed)
    requires n !in closed && InUniverse(start, n)
    ensures QueueValid(start, if n in queue then queue else queue + [n], f[n := h], closed)
  {
  }

  /** The handling of one token during expansion: skip cells that are off
      the board (outside a wrapping search), unsafe or closed, and link,
      score and enqueue a cell when it is new or its score improves. */
  method Relax(st: State, now: int, target: Cell, consider: bool, cur: Cell, d: Dir,
               queue0: seq<Cell>, f0: map<Cell, real>, g0: map<Cell, real>, closed: set<Cell>,
               came0: map<Cell, Link>, ghost start: Cell, ghost rank: map<Cell, nat>, ghost count: nat)
    returns (queue: seq<Cell>, f: map<Cell, real>, g: map<Cell, real>, came: map<Cell, Link>)
    requires cur in closed
    requires SearchInv(st, Wrapping(st) && consider, start, queue0, f0, closed, came0, rank, count)
    ensures SearchInv(st, Wrapping(st) && consider, start, queue, f, closed, came, rank, count)
  {
    var wrap := Wrapping(st) && consider;
    queue, f, g, came := queue0, f0, g0, came0;
    var nb := Neighbour(st, consider, cur, d);
    if nb.Some? {
      var n := nb.value;
      if IsSafe(st, n.x, n.y, false) && n !in closed {
        var t := GetOrZero(g, cur) + StepCost(st, now, target, cur, d, wrap);
        var open := n in queue;
        if !open || Improves(t, g, n) {
          var h := t + NeighbourHeuristic(st, now, n, target, wrap);
          NeighbourInUniverse(st, consider, cur, d, n, start);
          LinkKeepsInv(st, wrap, start, queue, f, closed, came, rank, count, cur, d, n, h);
          came := came[n := Link(cur, d)];
          g := g[n := t];
          f := f[n := h];
          if !open {
            queue := queue + [n];
          }
        }
      }
    }
  }

  /** The expansion of one closed cell: every token in order. */
  method Expand(st: State, now: int, target: Cell, consider: bool, cur: Cell, dirs: seq<Dir>,
                queue0: seq<Cell>, f0: map<Cell, real>, g0: map<Cell, real>, closed: set<Cell>,
                came0: map<Cell, Link>, ghost start: Cell, ghost rank: map<Cell, nat>, ghost count: nat)
    returns (queue: seq<Cell>, f: map<Cell, real>, g: map<Cell, real>, came: map<Cell, Link>)
    requires cur in closed
    requires SearchInv(st, Wrapping(st) && consider, start, queue0, f0, closed, came0, rank, count)
    ensures SearchInv(st, Wrapping(st) && consider, start, queue, f, closed, came, rank, count)
  {
    queue, f, g, came := queue0, f0, g0, came0;
    var i := 0;
    while i < |dirs|
      invariant 0 <= i <= |dirs|
      invariant SearchInv(st, Wrapping(st) && consider, start, queue, f, closed, came, rank, count)
    {
      queue, f, g, came := Relax(st, now, target, consider, cur, dirs[i], queue, f, g, closed, came, start, rank, count);
      i := i + 1;
    }
  }

  /** Every cell the search can enter lies in its universe and, on the
      board-bound paths, on the board. */
  lemma NeighbourInUniverse(st: State, consider: bool, cur: Cell, d: Dir, n: Cell, start: Cell)
    requires Neighbour(st, consider, cur, d) == Some(n)
    requires IsSafeCell(st, n, false)
    ensures InUniverse(start, n)
    ensures Enterable(st, Wrapping(st) && consider, n)
  {
  }

  /** Where a token sits in the fixed list up, right, down, left. */
  function DirRank(d: Dir): (k: nat)
    ensures k < |AllDirs| && AllDirs[k] == d
  {
    match d
    case Up => 0
    case Right => 1
    case Down => 2
    case Left => 3
  }

  /** The comparator of the wall-through search's direction sort, as
      written: at a board edge a long, well-fed snake tries first the
      tokens along that edge's axis (horizontal at a left or right edge,
      vertical at a top or bottom edge); a starving snake tries last the
      tokens that would leave the board; otherwise all tokens tie. */
  function Compare(st: State, now: int, cur: Cell, a: Dir, b: Dir): int {
    var va, vb := DirVec(a), DirVec(b);
    var edgeX := cur.x == 0 || cur.x == N - 1;
    var edgeY := cur.y == 0 || cur.y == N - 1;
    var starving := IsStarving(st, now);
    if (edgeX || edgeY) && |st.snake| > 15 && !starving
       && ((edgeX && (va.dx != 0 || vb.dx != 0)) || (edgeY && (va.dy != 0 || vb.dy != 0))) then
      if edgeX && (va.dx != 0 || vb.dx != 0) then Abs(vb.dx) - Abs(va.dx)
      else Abs(vb.dy) - Abs(va.dy)
    else if starving then
      var aOut := !InGrid(Cell(cur.x + va.dx, cur.y + va.dy));
      var bOut := !InGrid(Cell(cur.x + vb.dx, cur.y + vb.dy));
      if aOut && !bOut then 1 else if !aOut && bOut then -1 else 0
    else 0
  }

  /** A 0/1 key per token: 0 for the tokens the comparator puts first. */
  function SortKey(st: State, now: int, cur: Cell, d: Dir): (k: nat)
    ensures k <= 1
  {
    var v := DirVec(d);
    var edgeX := cur.x == 0 || cur.x == N - 1;
    var edgeY := cur.y == 0 || cur.y == N - 1;
    if (edgeX || edgeY) && |st.snake| > 15 && !IsStarving(st, now) then
      if edgeX then (if v.dx != 0 then 0 else 1) else (if v.dy != 0 then 0 else 1)
    else if IsStarving(st, now) then
      (if InGrid(Step(cur, v, false)) then 0 else 1)
    else 0
  }

  /** The comparator is a consistent order: it compares the two tokens'
      keys, so a stable sort by it is a stable sort by the key. */
  lemma CompareIsKeyOrder(st: State, now: int, cur: Cell, a: Dir, b: Dir)
    ensures Compare(st, now, cur, a, b) < 0 <==> SortKey(st, now, cur, a) < SortKey(st, now, cur, b)
    ensures Compare(st, now, cur, a, b) > 0 <==> SortKey(st, now, cur, a) > SortKey(st, now, cur, b)
  {
  }

  /** The tokens of `ds` whose key is `k`, in their order in `ds`. */
  function KeyedAs(ds: seq<Dir>, key: Dir -> nat, k: nat): (r: seq<Dir>)
    ensures forall d :: d in r <==> d in ds && key(d) == k
  {
    if ds == [] then []
    else if key(ds[0]) == k then [ds[0]] + KeyedAs(ds[1..], key, k)
    else KeyedAs(ds[1..], key, k)
  }

  /** Picking out one key keeps the tokens in their relative order. */
  lemma {:induction false} KeyedAsKeepsRank(ds: seq<Dir>, key: Dir -> nat, k: nat)
    requires RankIncreasing(ds)
    ensures RankIncreasing(KeyedAs(ds, key, k))
  {
    if ds != [] {
      var rest := KeyedAs(ds[1..], key, k);
      assert RankIncreasing(ds[1..]);
      KeyedAsKeepsRank(ds[1..], key, k);
      forall d | d in rest
        ensures DirRank(ds[0]) < DirRank(d)
      {
        var j :| 0 <= j < |ds[1..]| && ds[1..][j] == d;
        assert ds[j + 1] == d;
      }
    }
  }

  /** Splitting by a 0/1 key loses and duplicates nothing. */
  lemma {:induction false} KeyedAsSplits(ds: seq<Dir>, key: Dir -> nat)
    requires forall d :: key(d) <= 1
    ensures multiset(KeyedAs(ds, key, 0)) + multiset(KeyedAs(ds, key, 1)) == multiset(ds)
  {
    if ds != [] {
      KeyedAsSplits(ds[1..], key);
      assert ds == [ds[0]] + ds[1..];
    }
  }

  /** Tokens ordered by key, and among equal keys by their position in the
      fixed list: the order a stable sort by the comparator produces. */
  predicate KeyOrdered(st: State, now: int, cur: Cell, r: seq<Dir>) {
    forall i, j :: 0 <= i < j < |r| ==>
      || SortKey(st, now, cur, r[i]) < SortKey(st, now, cur, r[j])
      || (SortKey(st, now, cur, r[i]) == SortKey(st, now, cur, r[j]) && DirRank(r[i]) < DirRank(r[j]))
  }

  predicate RankIncreasing(ds: seq<Dir>) {
    forall i, j :: 0 <= i < j < |ds| ==> DirRank(ds[i]) < DirRank(ds[j])
  }

  lemma AllDirsRanked()
    ensures RankIncreasing(AllDirs)
  {
  }

  /** The key-0 tokens followed by the key-1 tokens, each group in rank
      order, are key ordered. */
  lemma {:induction false} GroupsOrdered(st: State, now: int, cur: Cell, lo: seq<Dir>, hi: seq<Dir>)
    requires forall d :: d in lo ==> SortKey(st, now, cur, d) == 0
    requires forall d :: d in hi ==> SortKey(st, now, cur, d) == 1
    requires RankIncreasing(lo) && RankIncreasing(hi)
    ensures KeyOrdered(st, now, cur, lo + hi)
  {
    var r := lo + hi;
    forall i, j | 0 <= i < j < |r|
      ensures || SortKey(st, now, cur, r[i]) < SortKey(st, now, cur, r[j])
              || (SortKey(st, now, cur, r[i]) == SortKey(st, now, cur, r[j]) && DirRank(r[i]) < DirRank(r[j]))
    {
      if j < |lo| {
        assert r[i] == lo[i] && r[j] == lo[j];
        assert lo[i] in lo && lo[j] in lo;
      } else if i >= |lo| {
        assert r[i] == hi[i - |lo|] && r[j] == hi[j - |lo|];
        assert hi[i - |lo|] in hi && hi[j - |lo|] in hi;
      } else {
        assert r[i] == lo[i] && lo[i] in lo;
        assert r[j] == hi[j - |lo|] && hi[j - |lo|] in hi;
      }
    }
  }

  /** The direction list of the wall-through search after its stable sort:
      a permutation of up, right, down, left ordered by key, and among equal
      keys by the original position. */
  function SearchOrder(st: State, now: int, cur: Cell): (r: seq<Dir>)
    ensures multiset(r) == multiset(AllDirs)
    ensures KeyOrdered(st, now, cur, r)
  {
    var key := d => SortKey(st, now, cur, d);
    var lo := KeyedAs(AllDirs, key, 0);
    var hi := KeyedAs(AllDirs, key, 1);
    KeyedAsSplits(AllDirs, key);
    AllDirsRanked();
    KeyedAsKeepsRank(AllDirs, key, 0);
    KeyedAsKeepsRank(AllDirs, key, 1);
    GroupsOrdered(st, now, cur, lo, hi);
    lo + hi
  }

  /** `aStarPath(start, target, considerWallThrough, maxSteps)` with the
      clock reading `now` as a parameter. The result is empty when start and target agree;
      otherwise a non-empty result leads from start to target through
      enterable cells, and is no shorter than the distance the steps
      allow. */
  method AStarPath(st: State, now: int, start: Cell, target: Cell, consider: bool, budget: Budget)
    returns (path: seq<Dir>)
    ensures start == target ==> path == []
    ensures path != [] ==> Route(st, Wrapping(st) && consider, start, target, path)
    ensures budget.AtMost? && budget.limit <= 0 ==> path == []
  {
    if start == target {
      return [];
    }
    var queue, f, g := StartSearch(st, now, start, target, Wrapping(st) && consider);
    var closed: set<Cell> := {};
    var came: map<Cell, Link> := map[];
    ghost var rank: map<Cell, nat> := map[];
    var steps: nat := 0;
    while |queue| > 0 && Allows(budget, steps)
      invariant SearchInv(st, Wrapping(st) && consider, start, queue, f, closed, came, rank, steps)
      invariant steps == 0 || Allows(budget, steps - 1)
      decreases |Universe(start) - closed|
    {
      var found;
      found, path, queue, f, g, closed, came, rank, steps :=
        SearchStep(st, now, start, target, consider, queue, f, g, closed, came, rank, steps);
      if found {
        return;
      }
    }
    return [];
  }

  /** One round of the search loop: pop the open cell with the least
      f-score; stop with the reconstructed path when it is the target,
      otherwise close and expand it. */
  method SearchStep(st: State, now: int, start: Cell, target: Cell, consider: bool,
                    queue0: seq<Cell>, f0: map<Cell, real>, g0: map<Cell, real>, closed0: set<Cell>,
                    came0: map<Cell, Link>, ghost rank0: map<Cell, nat>, steps0: nat)
    returns (found: bool, path: seq<Dir>, queue: seq<Cell>, f: map<Cell, real>, g: map<Cell, real>,
             closed: set<Cell>, came: map<Cell, Link>, ghost rank: map<Cell, nat>, steps: nat)
    requires |queue0| > 0 && start != target
    requires SearchInv(st, Wrapping(st) && consider, start, queue0, f0, closed0, came0, rank0, steps0)
    ensures found ==> path != [] && Route(st, Wrapping(st) && consider, start, target, path)
    ensures !found ==> SearchInv(st, Wrapping(st) && consider, start, queue, f, closed, came, rank, steps)
    ensures !found ==> steps == steps0 + 1 && |Universe(start) - closed| < |Universe(start) - closed0|
  {
    var wrap := Wrapping(st) && consider;
    var m := PickMin(queue0, f0);
    var cur := queue0[m];
    if cur == target {
      assert cur in queue0;
      path := ReconstructPath(st, wrap, came0, cur, start, rank0, steps0);
      WalkLength(wrap, start, path);
      return true, path, queue0, f0, g0, closed0, came0, rank0, steps0;
    }
    CloseKeepsInv(st, wrap, start, queue0, f0, closed0, came0, rank0, steps0, m);
    queue := RemoveAt(queue0, m);
    rank := rank0[cur := steps0];
    closed := closed0 + {cur};
    steps := steps0 + 1;
    var dirs := if wrap then SearchOrder(st, now, cur) else AllDirs;
    queue, f, g, came := Expand(st, now, target, consider, cur, dirs, queue, f0, g0, closed, came0, start, rank, steps);
    found, path := false, [];
  }

  /** The opening of the search: only the start cell is open, with score
      0 and the start heuristic as its f-score. */
  method StartSearch(st: State, now: int, start: Cell, target: Cell, ghost wrap: bool)
    returns (queue: seq<Cell>, f: map<Cell, real>, g: map<Cell, real>)
    ensures queue == [start] && g == map[start := 0.0]
    ensures f == map[start := StartHeuristic(st, now, start, target)]
    ensures SearchInv(st, wrap, start, queue, f, {}, map[], map[], 0)
  {
    queue := [start];
    f := map[start := StartHeuristic(st, now, start, target)];
    g := map[start := 0.0];
  }

  /** Closing the popped cell keeps the invariants and shrinks the set of
      cells that may still be closed. */
  lemma CloseKeepsInv(st: State, wrap: bool, start: Cell, queue: seq<Cell>, f: map<Cell, real>,
                      closed: set<Cell>, came: map<Cell, Link>, rank: map<Cell, nat>, count: nat, m: nat)
    requires SearchInv(st, wrap, start, queue, f, closed, came, rank, count)
    requires m < |queue|
    ensures SearchInv(st, wrap, start, RemoveAt(queue, m), f, closed + {queue[m]}, came,
                      rank[queue[m] := count], count + 1)
    ensures |Universe(start) - (closed + {queue[m]})| < |Universe(start) - closed|
  {
    var cur := queue[m];
    var q := RemoveAt(queue, m);
    var rank' := rank[cur := count];
    assert cur in queue;
    assert QueueValid(start, q, f, closed + {cur});
    assert RanksValid(came, rank', count + 1);
    assert LinksValid(st, wrap, came, rank');
    assert Covered(start, q, came, rank');
    if InBox(cur) {
      BoxInUniverse(cur, start);
    }
    assert Universe(start) - closed == (Universe(start) - (closed + {cur})) + {cur};
  }

  /** `splice(m, 1)` on a queue of distinct cells removes exactly that cell. */
  function RemoveAt(q: seq<Cell>, m: nat): (r: seq<Cell>)
    requires m < |q| && DistinctQueue(q)
    ensures DistinctQueue(r)
    ensures forall c :: c in r <==> c in q && c != q[m]
  {
    var r := q[..m] + q[m + 1..];
    assert forall i :: 0 <= i < |r| ==> r[i] == if i < m then q[i] else q[i + 1];
    r
  }

  /** No walk is shorter than the distance it covers: Manhattan distance
      for a board-bound walk, wrapped distance for a wrapping walk between
      board cells. */
  lemma {:induction false} WalkLength(wrap: bool, c: Cell, path: seq<Dir>)
    ensures !wrap ==> |path| >= Manhattan(c, Replay(wrap, c, path))
    ensures wrap && InGrid(c) && InGrid(Replay(wrap, c, path)) ==> |path| >= WrappedDistance(c, Replay(wrap, c, path))
    decreases path
  {
    if path != [] {
      var next := Advance(wrap, c, path[0]);
      var t := Replay(wrap, c, path);
      WalkLength(wrap, next, path[1..]);
      if wrap {
        if InGrid(c) && InGrid(t) {
          StepWrappedInGrid(c, path[0]);
          WrappedDistanceStep(c, t, path[0]);
          WrappedDistanceBasics(c, t);
          WrappedDistanceBasics(next, t);
        }
      } else {
        ManhattanStep(c, t, path[0]);
      }
    } else {
      if wrap && InGrid(c) {
        WrappedDistanceBasics(c, c);
      }
    }
  }
}

=== FILE: simulation.dfy ===
/** The two look-ahead simulations: `predictFutureState` (moves the snake
    along a path, eating foods on the way) and `isRiskyPath` (moves it
    without food and watches for collisions, traps and lack of space). */
module Simulation {
  import opened Grid
  import opened Game
  import opened Motion
  import opened Space

  /** The first `min(|path|, steps)` tokens, the part a simulation reads. */
  function Horizon(path: seq<Dir>, steps: nat): (p: seq<Dir>)
    ensures |p| <= steps && |p| <= |path| && p == path[..|p|]
    ensures |p| == steps || p == path
  {
    if steps < |path| then path[..steps] else path
  }

  // ---------------------------------------------------------------------
  // `predictFutureState`
  // ---------------------------------------------------------------------

  /** A simulated snake with its heading and the foods still on the board. */
  datatype Future = Future(snake: seq<Cell>, heading: Vec, foods: seq<Cell>)

  /** One simulated move of `predictFutureState`: turn, step, and on a food
      remove it and push a copy of the tail before the head goes on, so
      nothing is popped: the snake grows by two cells. */
  function PredictStep(wrap: bool, f: Future, d: Dir): (r: Future)
    requires |f.snake| > 0
    ensures |r.snake| > 0
    ensures |r.snake| + 2 * |r.foods| == |f.snake| + 2 * |f.foods|
    ensures multiset(r.foods) <= multiset(f.foods)
    ensures r.heading == Turn(f.heading, d)
    ensures r.snake[0] == Step(f.snake[0], r.heading, wrap)
    ensures r.snake[0] in f.foods ==>
              && |r.snake| == |f.snake| + 2
              && multiset(r.foods) == multiset(f.foods) - multiset{r.snake[0]}
    ensures r.snake[0] !in f.foods ==> |r.snake| == |f.snake| && r.foods == f.foods
  {
    var h := Turn(f.heading, d);
    var head := Step(f.snake[0], h, wrap);
    var k := FoodIndex(f.foods, head);
    FoodIndexFound(f.foods, head);
    if k < |f.foods| then
      Future([head] + f.snake + [f.snake[|f.snake| - 1]], h, RemoveFood(f.foods, k))
    else
      Future([head] + f.snake[..|f.snake| - 1], h, f.foods)
  }

  /** The simulation after consuming every token of `path`. */
  function Predict(wrap: bool, f: Future, path: seq<Dir>): (r: Future)
    requires |f.snake| > 0
    ensures |r.snake| > 0
    decreases |path|
  {
    if path == [] then f
    else PredictStep(wrap, Predict(wrap, f, path[..|path| - 1]), path[|path| - 1])
  }

  /** Every eaten food adds two cells: snake length plus twice the food
      count is the same before and after any prediction, so the snake never
      shrinks and the foods never grow. */
  lemma {:induction false} PredictConservesMass(wrap: bool, f: Future, path: seq<Dir>)
    requires |f.snake| > 0
    ensures var r := Predict(wrap, f, path);
            && |r.snake| + 2 * |r.foods| == |f.snake| + 2 * |f.foods|
            && |f.snake| <= |r.snake| <= |f.snake| + 2 * |path|
            && multiset(r.foods) <= multiset(f.foods)
    decreases |path|
  {
    if path != [] {
      PredictConservesMass(wrap, f, path[..|path| - 1]);
      var m := Predict(wrap, f, path[..|path| - 1]);
      var r := PredictStep(wrap, m, path[|path| - 1]);
      assert |r.foods| <= |m.foods| by {
        assert |multiset(r.foods)| <= |multiset(m.foods)|;
      }
    }
  }

  /** `predictFutureState(path, steps)` from the game state. */
  function PredictFutureState(st: State, path: seq<Dir>, steps: nat): (r: Future)
    requires |st.snake| > 0
    ensures |r.snake| > 0
    ensures |r.snake| + 2 * |r.foods| == |st.snake| + 2 * |st.foods|
    ensures |st.snake| <= |r.snake| <= |st.snake| + 2 * Min(|path|, steps)
    ensures multiset(r.foods) <= multiset(st.foods)
  {
    PredictConservesMass(Wrapping(st), Future(st.snake, st.heading, st.foods), Horizon(path, steps));
    Predict(Wrapping(st), Future(st.snake, st.heading, st.foods), Horizon(path, steps))
  }

  /** The simulation and the real move agree on the new head, and, when no
      food is eaten, on the whole snake; after a meal the simulated snake is
      one cell longer than the real one, which grows by a single cell. The
      real move is taken after the token is queued, from a state whose
      queued heading is its heading (as it is after every move). */
  lemma PredictVersusMove(st: State, d: Dir, now: int, refill: seq<Cell>)
    requires |st.snake| > 0 && st.next == st.heading
    ensures var p := PredictFutureState(st, [d], 1);
            var m := MoveSnake(SetNextDirection(st, d), now, refill);
            && p.snake[0] == m.snake[0]
            && p.heading == m.heading
            && (!Eats(SetNextDirection(st, d)) ==> p.snake == m.snake)
            && (Eats(SetNextDirection(st, d)) ==> |p.snake| == |m.snake| + 1)
  {
    var f := Future(st.snake, st.heading, st.foods);
    assert Horizon([d], 1) == [d];
    assert Predict(Wrapping(st), f, [d]) == PredictStep(Wrapping(st), f, d) by {
      assert [d][..0] == [];
    }
    var s := SetNextDirection(st, d);
    FoodIndexFound(st.foods, NextHead(s));
    MoveLengthAndScore(s, now, refill);
  }

  // ---------------------------------------------------------------------
  // `isRiskyPath`
  // ---------------------------------------------------------------------

  /** A risk-simulation snake and its heading (foods play no part). */
  datatype Probe = Probe(snake: seq<Cell>, heading: Vec)

  /** One move of the risk simulation: turn, step, unshift the head and pop
      the tail, so the length stays the same. */
  function ProbeStep(wrap: bool, p: Probe, d: Dir): (r: Probe)
    requires |p.snake| > 0
    ensures |r.snake| == |p.snake|
  {
    var h := Turn(p.heading, d);
    var head := Step(p.snake[0], h, wrap);
    Probe([head] + p.snake[..|p.snake| - 1], h)
  }

  /** The risk simulation after the given tokens, from the game's snake. */
  function Probed(st: State, path: seq<Dir>): (r: Probe)
    requires |st.snake| > 0
    ensures |r.snake| == |st.snake|
    decreases |path|
  {
    if path == [] then Probe(st.snake, st.heading)
    else ProbeStep(Wrapping(st), Probed(st, path[..|path| - 1]), path[|path| - 1])
  }

  /** Step i runs into the snake as it stood before that step (the tail
      cell included, since the check comes before the pop). */
  predicate HitAt(st: State, path: seq<Dir>, i: nat)
    requires |st.snake| > 0 && i < |path|
  {
    var before := Probed(st, path[..i]);
    Probed(st, path[..i + 1]).snake[0] in before.snake
  }

  /** The free area the space test asks for: `min(10 or 8, floor(length / 3))`
      of the game's snake (0 makes the free-space count use its default). */
  function RequiredSpace(st: State): (r: int)
    ensures 0 <= r <= 10
  {
    var third := |st.snake| / 3;
    var cap := if Wrapping(st) then 10 else 8;
    if third < cap then third else cap
  }


  /** The space test: less free space around the head than the required
      area squared times the fraction. */
  predicate Cramped(st: State, head: Cell, temp: seq<Cell>) {
    FreeSpace(st, head, temp, RequiredSpace(st)) < SpaceNeeded(st)
  }

  /** The required area squared times 0.8 (crazy level), 0.5 (wall-through)
      or 0.7. */
  function SpaceNeeded(st: State): real {
    var req := RequiredSpace(st);
    if IsCrazy(st) then 0.8 * (req * req) as real
    else if Wrapping(st) then 0.5 * (req * req) as real
    else 0.7 * (req * req) as real
  }

  /** The space test after step i. */
  predicate CrampedAt(st: State, path: seq<Dir>, i: nat)
    requires |st.snake| > 0 && i < |path|
  {
    var after := Probed(st, path[..i + 1]);
    Cramped(st, after.snake[0], after.snake)
  }

  /** The trap test after step i. */
  predicate TrappedAt(st: State, path: seq<Dir>, i: nat)
    requires |st.snake| > 0 && i < |path|
  {
    var after := Probed(st, path[..i + 1]);
    IsInClosedLoop(st, after.snake[0], after.snake)
  }

  /** What makes step i risky: a collision alone when the caller focuses on
      self-collision; otherwise also a trap or, unless starving, cramped
      space. */
  predicate RiskAt(st: State, now: int, path: seq<Dir>, focus: bool, i: nat)
    requires |st.snake| > 0 && i < |path|
  {
    || HitAt(st, path, i)
    || (!focus && TrappedAt(st, path, i))
    || (!focus && !IsStarving(st, now) && CrampedAt(st, path, i))
  }

  /** Some step before step k is risky. */
  predicate RiskBefore(st: State, now: int, p: seq<Dir>, focus: bool, k: nat)
    requires |st.snake| > 0 && k <= |p|
  {
    k > 0 && (RiskBefore(st, now, p, focus, k - 1) || RiskAt(st, now, p, focus, k - 1))
  }

  /** Some step before step k collides. */
  predicate HitBefore(st: State, p: seq<Dir>, k: nat)
    requires |st.snake| > 0 && k <= |p|
  {
    k > 0 && (HitBefore(st, p, k - 1) || HitAt(st, p, k - 1))
  }

  /** The meaning of `isRiskyPath(path, focus, steps)`: never risky while
      starving unless focused on self-collision; otherwise risky exactly
      when some step within the horizon is. */
  predicate Risky(st: State, now: int, path: seq<Dir>, focus: bool, steps: nat)
    requires |st.snake| > 0
  {
    var p := Horizon(path, steps);
    if IsStarving(st, now) && !focus then false
    else RiskBefore(st, now, p, focus, |p|)
  }

  lemma ProbedPrefix(st: State, path: seq<Dir>, i: nat)
    requires |st.snake| > 0 && i < |path|
    ensures Probed(st, path[..i + 1]) == ProbeStep(Wrapping(st), Probed(st, path[..i]), path[i])
  {
    assert path[..i + 1][..i] == path[..i];
  }

  /** One pass of the loop body of `isRiskyPath`: the turn, the step, the
      collision test against the snake before the move, the move itself,
      and the trap and space tests around the new head. `stop` says the
      source returns true at this step; otherwise the step is risky only
      through a collision, which the source notes and goes on. */
  method ProbeOnce(st: State, now: int, p: seq<Dir>, focus: bool, i: nat, temp: seq<Cell>, h: Vec)
    returns (temp': seq<Cell>, h': Vec, hit: bool, stop: bool)
    requires |st.snake| > 0 && i < |p|
    requires Probe(temp, h) == Probed(st, p[..i])
    ensures Probe(temp', h') == Probed(st, p[..i + 1])
    ensures hit == HitAt(st, p, i)
    ensures stop ==> RiskAt(st, now, p, focus, i)
    ensures !stop ==> (RiskAt(st, now, p, focus, i) <==> hit && !focus)
  {
    ProbedPrefix(st, p, i);
    h' := Turn(h, p[i]);
    var head := Step(temp[0], h', Wrapping(st));
    hit := head in temp;
    if hit && focus {
      temp', stop := [head] + temp[..|temp| - 1], true;
      return;
    }
    temp' := [head] + temp[..|temp| - 1];
    if !focus && IsInClosedLoop(st, head, temp') {
      return temp', h', hit, true;
    }
    if !focus && !IsStarving(st, now) {
      var free := CountFreeSpace(st, head, temp', RequiredSpace(st));
      if free < SpaceNeeded(st) {
        return temp', h', hit, true;
      }
    }
    stop := false;
  }

  /** `isRiskyPath` as the source runs it: one pass over the horizon that
      returns at the first trap, cramped step or (when focused) collision,
      and otherwise reports whether any collision was seen. */
  method IsRiskyPath(st: State, now: int, path: seq<Dir>, focus: bool, steps: nat) returns (r: bool)
    requires |st.snake| > 0
    ensures r == Risky(st, now, path, focus, steps)
  {
    if IsStarving(st, now) && !focus {
      return false;
    }
    var p := Horizon(path, steps);
    var temp := st.snake;
    var h := st.heading;
    var seen := false;
    var i := 0;
    while i < |p|
      invariant 0 <= i <= |p|
      invariant Probe(temp, h) == Probed(st, p[..i])
      invariant seen == HitBefore(st, p, i)
      invariant RiskBefore(st, now, p, focus, i) == seen
      invariant focus ==> !seen
    {
      var hit, stop;
      temp, h, hit, stop := ProbeOnce(st, now, p, focus, i, temp, h);
      if stop {
        RiskStaysFound(st, now, p, focus, i + 1, |p|);
        return true;
      }
      seen := seen || hit;
      i := i + 1;
    }
    r := seen;
  }

  /** A risky step stays found when more steps are looked at. */
  lemma {:induction false} RiskStaysFound(st: State, now: int, p: seq<Dir>, focus: bool, k: nat, m: nat)
    requires |st.snake| > 0 && k <= m <= |p|
    requires RiskBefore(st, now, p, focus, k)
    ensures RiskBefore(st, now, p, focus, m)
    decreases m - k
  {
    if k < m {
      RiskStaysFound(st, now, p, focus, k + 1, m);
    }
  }

  /** A risky step makes every longer prefix risky. */
  lemma {:induction false} RiskyStepIsFound(st: State, now: int, p: seq<Dir>, focus: bool, i: nat, m: nat)
    requires |st.snake| > 0 && i < m <= |p|
    requires RiskAt(st, now, p, focus, i)
    ensures RiskBefore(st, now, p, focus, m)
  {
    assert RiskBefore(st, now, p, focus, i + 1);
    RiskStaysFound(st, now, p, focus, i + 1, m);
  }

  /** Conversely every risky prefix holds a risky step. */
  lemma {:induction false} FoundRiskHasStep(st: State, now: int, p: seq<Dir>, focus: bool, k: nat)
    requires |st.snake| > 0 && k <= |p|
    requires RiskBefore(st, now, p, focus, k)
    ensures exists i :: 0 <= i < k && RiskAt(st, now, p, focus, i)
  {
    if RiskAt(st, now, p, focus, k - 1) {
    } else {
      FoundRiskHasStep(st, now, p, focus, k - 1);
    }
  }

  /** Whether step i is risky depends only on the tokens up to step i. */
  lemma RiskAtPrefix(st: State, now: int, p: seq<Dir>, q: seq<Dir>, focus: bool, i: nat)
    requires |st.snake| > 0 && i < |p| && i < |q| && p[..i + 1] == q[..i + 1]
    ensures RiskAt(st, now, p, focus, i) == RiskAt(st, now, q, focus, i)
  {
    assert p[..i] == p[..i + 1][..i];
    assert q[..i] == q[..i + 1][..i];
  }

  /** The risky prefixes of a path are those of any extension of it. */
  lemma {:induction false} RiskBeforePrefix(st: State, now: int, p: seq<Dir>, q: seq<Dir>, focus: bool, k: nat)
    requires |st.snake| > 0 && k <= |p| <= |q| && p == q[..|p|]
    ensures RiskBefore(st, now, p, focus, k) == RiskBefore(st, now, q, focus, k)
  {
    if k > 0 {
      RiskBeforePrefix(st, now, p, q, focus, k - 1);
      assert p[..k] == q[..k];
      RiskAtPrefix(st, now, p, q, focus, k - 1);
    }
  }

  /** Looking further never clears a risk. */
  lemma RiskGrowsWithHorizon(st: State, now: int, path: seq<Dir>, focus: bool, steps: nat, more: nat)
    requires |st.snake| > 0 && steps <= more
    requires Risky(st, now, path, focus, steps)
    ensures Risky(st, now, path, focus, more)
  {
    var p, q := Horizon(path, steps), Horizon(path, more);
    assert p == q[..|p|];
    RiskBeforePrefix(st, now, p, q, focus, |p|);
    RiskStaysFound(st, now, q, focus, |p|, |q|);
  }

  /** With the focus on self-collision, a path is risky exactly when some
      step within the horizon collides. */
  lemma {:induction false} FocusedRiskIsCollision(st: State, now: int, p: seq<Dir>, k: nat)
    requires |st.snake| > 0 && k <= |p|
    ensures RiskBefore(st, now, p, true, k) == HitBefore(st, p, k)
  {
    if k > 0 {
      FocusedRiskIsCollision(st, now, p, k - 1);
    }
  }

  /** A collision found by the focused check is also found by the full
      check, unless the snake is starving (then the full check is off). */
  lemma {:induction false} FocusedRiskIsRisk(st: State, now: int, p: seq<Dir>, k: nat)
    requires |st.snake| > 0 && k <= |p|
    requires RiskBefore(st, now, p, true, k)
    ensures RiskBefore(st, now, p, false, k)
  {
    if !RiskAt(st, now, p, true, k - 1) {
      FocusedRiskIsRisk(st, now, p, k - 1);
    }
  }

  /** A snake shorter than three cells asks for no space (the required
      area is 0), so only collisions and traps can make its path risky. */
  lemma ShortSnakeNeverCramped(st: State, path: seq<Dir>, i: nat)
    requires |st.snake| > 0 && i < |path| && |st.snake| < 3
    ensures !CrampedAt(st, path, i)
  {
    var after := Probed(st, path[..i + 1]);
    FreeSpaceRange(st, after.snake[0], after.snake, 0);
  }

  /** An empty path is never risky, and a starving snake's paths are risky
      only to the focused check. */
  lemma RiskyBasics(st: State, now: int, path: seq<Dir>, focus: bool, steps: nat)
    requires |st.snake| > 0
    ensures !Risky(st, now, [], focus, steps)
    ensures IsStarving(st, now) && !focus ==> !Risky(st, now, path, focus, steps)
  {
  }
}

=== FILE: space.dfy ===
/** Free-space estimation around a cell (`countFreeSpace`) and the trap
    test built on it (`isInClosedLoop`). */
module Space {
  import opened Grid
  import opened Game

  /** The window radius: a non-zero `customRadius` wins (JavaScript's
      `customRadius || ...` treats 0 like a missing argument); otherwise 10
      in wall-through mode and `min(7, floor(length / 4) + 3)` in normal
      mode, where the length is that of the game's own snake. */
  function Radius(st: State, custom: int): (r: int)
    ensures custom != 0 ==> r == custom
    ensures custom == 0 ==> 3 <= r <= 10
  {
    if custom != 0 then custom
    else if Wrapping(st) then 10
    else if |st.snake| / 4 + 3 < 7 then |st.snake| / 4 + 3
    else 7
  }

  predicate IsCorner(c: Cell) {
    (c.x == 0 || c.x == N - 1) && (c.y == 0 || c.y == N - 1)
  }

  /** `k` free cells weighed: each counts 1.5 around a board corner and 1
      elsewhere. */
  function Weighted(center: Cell, k: nat): (r: real)
    ensures k as real <= r <= 1.5 * k as real
    ensures IsCorner(center) ==> r == 1.5 * k as real
    ensures !IsCorner(center) ==> r == k as real
  {
    if IsCorner(center) then 1.5 * k as real else k as real
  }

  /** Whether window position (x, y) counts as free: in wall-through mode it
      is wrapped with the single wrap, in normal mode off-board positions
      are skipped; the cell counts when `excl` does not hold it. */
  predicate Counted(st: State, excl: seq<Cell>, x: int, y: int) {
    if Wrapping(st) then Cell(WrapOnce(x), WrapOnce(y)) !in excl
    else InGrid(Cell(x, y)) && Cell(x, y) !in excl
  }

  /** Free positions among (x, y0) .. (x, y0 + m - 1). */
  function ColumnCount(st: State, excl: seq<Cell>, x: int, y0: int, m: nat): nat {
    if m == 0 then 0
    else ColumnCount(st, excl, x, y0, m - 1) + (if Counted(st, excl, x, y0 + m - 1) then 1 else 0)
  }

  /** Free positions in the n columns x0 .. x0 + n - 1, rows y0 .. y0 + m - 1. */
  function WindowCount(st: State, excl: seq<Cell>, x0: int, y0: int, n: nat, m: nat): nat {
    if n == 0 then 0
    else WindowCount(st, excl, x0, y0, n - 1, m) + ColumnCount(st, excl, x0 + n - 1, y0, m)
  }

  /** Side of the square window; a negative radius gives an empty window. */
  function Side(radius: int): nat {
    if radius < 0 then 0 else 2 * radius + 1
  }

  /** `countFreeSpace(center, excludeSnake, customRadius)` with 0 for a
      missing radius: the weighted number of free positions in the square
      window of that radius around the center. */
  function FreeSpace(st: State, center: Cell, excl: seq<Cell>, custom: int): real {
    var rad := Radius(st, custom);
    Weighted(center, WindowCount(st, excl, center.x - rad, center.y - rad, Side(rad), Side(rad)))
  }

  /** The source's double loop, x outer and y inner, adding the weight per
      free position; it computes the window count above. */
  method CountFreeSpace(st: State, center: Cell, excl: seq<Cell>, custom: int) returns (count: real)
    ensures count == FreeSpace(st, center, excl, custom)
  {
    var rad := Radius(st, custom);
    var corner := IsCorner(center);
    var w := if corner then 1.5 else 1.0;
    var x0, y0 := center.x - rad, center.y - rad;
    ghost var k: nat := 0;
    count := 0.0;
    var x := x0;
    while x <= center.x + rad
      invariant x0 <= x && (rad >= 0 ==> x <= center.x + rad + 1)
      invariant rad < 0 ==> x == x0
      invariant k == WindowCount(st, excl, x0, y0, x - x0, Side(rad))
      invariant count == Weighted(center, k)
    {
      var y := y0;
      ghost var col: nat := 0;
      while y <= center.y + rad
        invariant y0 <= y <= center.y + rad + 1
        invariant col == ColumnCount(st, excl, x, y0, y - y0)
        invariant count == Weighted(center, k + col)
      {
        var nx, ny := x, y;
        var skip := false;
        if Wrapping(st) {
          nx := WrapOnce(x);
          ny := WrapOnce(y);
        } else if x < 0 || x >= N || y < 0 || y >= N {
          skip := true;
        }
        if !skip && Cell(nx, ny) !in excl {
          count := count + w;
          col := col + 1;
        }
        assert col == ColumnCount(st, excl, x, y0, y + 1 - y0);
        y := y + 1;
      }
      k := k + col;
      x := x + 1;
    }
  }

  /** A column never counts more positions than it has. */
  lemma {:induction false} ColumnBound(st: State, excl: seq<Cell>, x: int, y0: int, m: nat)
    ensures ColumnCount(st, excl, x, y0, m) <= m
    ensures Wrapping(st) && excl == [] ==> ColumnCount(st, excl, x, y0, m) == m
  {
    if m > 0 {
      ColumnBound(st, excl, x, y0, m - 1);
    }
  }

  /** The window count lies between 0 and the window's area, and in
      wall-through mode with nothing excluded it is the whole area. */
  lemma {:induction false} WindowBound(st: State, excl: seq<Cell>, x0: int, y0: int, n: nat, m: nat)
    ensures WindowCount(st, excl, x0, y0, n, m) <= n * m
    ensures Wrapping(st) && excl == [] ==> WindowCount(st, excl, x0, y0, n, m) == n * m
  {
    if n > 0 {
      WindowBound(st, excl, x0, y0, n - 1, m);
      ColumnBound(st, excl, x0 + n - 1, y0, m);
      assert (n - 1) * m + m == n * m;
    }
  }

  /** Free space is non-negative and at most the weighted window area; with
      nothing excluded in wall-through mode it is exactly that area. */
  lemma FreeSpaceRange(st: State, center: Cell, excl: seq<Cell>, custom: int)
    ensures var s := Side(Radius(st, custom));
            0.0 <= FreeSpace(st, center, excl, custom) <= Weighted(center, s * s)
    ensures Wrapping(st) && excl == [] ==>
              var s := Side(Radius(st, custom));
              FreeSpace(st, center, excl, custom) == Weighted(center, s * s)
  {
    var rad := Radius(st, custom);
    WindowBound(st, excl, center.x - rad, center.y - rad, Side(rad), Side(rad));
  }

  /** Excluding more cells never finds more free space. */
  lemma {:induction false} ColumnMonotone(st: State, more: seq<Cell>, fewer: seq<Cell>, x: int, y0: int, m: nat)
    requires forall c :: c in fewer ==> c in more
    ensures ColumnCount(st, more, x, y0, m) <= ColumnCount(st, fewer, x, y0, m)
  {
    if m > 0 {
      ColumnMonotone(st, more, fewer, x, y0, m - 1);
    }
  }

  lemma {:induction false} WindowMonotone(st: State, more: seq<Cell>, fewer: seq<Cell>, x0: int, y0: int, n: nat, m: nat)
    requires forall c :: c in fewer ==> c in more
    ensures WindowCount(st, more, x0, y0, n, m) <= WindowCount(st, fewer, x0, y0, n, m)
  {
    if n > 0 {
      WindowMonotone(st, more, fewer, x0, y0, n - 1, m);
      ColumnMonotone(st, more, fewer, x0 + n - 1, y0, m);
    }
  }

  lemma FreeSpaceMonotone(st: State, center: Cell, more: seq<Cell>, fewer: seq<Cell>, custom: int)
    requires forall c :: c in fewer ==> c in more
    ensures FreeSpace(st, center, more, custom) <= FreeSpace(st, center, fewer, custom)
  {
    var rad := Radius(st, custom);
    WindowMonotone(st, more, fewer, center.x - rad, center.y - rad, Side(rad), Side(rad));
  }

  /** Measured against the game's own snake, a window position counts
      exactly when `isSafe` (without danger memory) accepts it, as long as
      the position is no further than one board side below zero, where the
      single wrap still agrees with the double wrap. */
  lemma CountedIsSafe(st: State, x: int, y: int)
    requires -N <= x && -N <= y
    ensures Counted(st, st.snake, x, y) == IsSafe(st, x, y, false)
  {
    WrapOnceAgrees(x);
    WrapOnceAgrees(y);
  }

  // ---------------------------------------------------------------------
  // Trap test (`isInClosedLoop`)
  // ---------------------------------------------------------------------

  /** The four neighbours in the source's order: right, left, down, up. */
  function Neighbours(c: Cell): seq<Cell> {
    [Cell(c.x + 1, c.y), Cell(c.x - 1, c.y), Cell(c.x, c.y + 1), Cell(c.x, c.y - 1)]
  }

  /** A neighbour is blocked when (after the single wrap in wall-through
      mode) it is a body cell, or in normal mode when it is off the board. */
  predicate Blocked(st: State, body: seq<Cell>, p: Cell) {
    if Wrapping(st) then Cell(WrapOnce(p.x), WrapOnce(p.y)) in body
    else !InGrid(p) || p in body
  }

  function CountBlocked(st: State, body: seq<Cell>, ps: seq<Cell>): (k: nat)
    ensures k <= |ps|
  {
    if ps == [] then 0
    else (if Blocked(st, body, ps[0]) then 1 else 0) + CountBlocked(st, body, ps[1..])
  }

  /** `tempSnake.slice(1)`. */
  function Body(temp: seq<Cell>): seq<Cell> {
    if temp == [] then [] else temp[1..]
  }

  /** Blocked neighbours needed before the area is measured: 3, or 2 at
      the crazy level in normal mode. */
  function BlockedThreshold(st: State): int {
    if Wrapping(st) then 3 else if IsCrazy(st) then 2 else 3
  }

  /** A free area below the snake's length times 0.3 (wall-through), 0.5
      (crazy level) or 0.7 is a trap. */
  function TrapArea(st: State, len: nat): real {
    if Wrapping(st) then 0.3 * len as real
    else if IsCrazy(st) then 0.5 * len as real
    else 0.7 * len as real
  }

  /** `isInClosedLoop(head, tempSnake)`: enough blocked neighbours, and a
      free area (radius 8 in wall-through mode, 7 otherwise) smaller than
      the trap area of the simulated snake's length. A trap always has its
      blocked neighbours and a non-empty snake. In normal mode the radius-7
      window around a board cell keeps at least 64 board positions and each
      snake cell hides at most one of them, so a snake of at most 37 cells
      is never judged trapped. */
  function IsInClosedLoop(st: State, head: Cell, temp: seq<Cell>): (r: bool)
    ensures r ==> CountBlocked(st, Body(temp), Neighbours(head)) >= BlockedThreshold(st)
    ensures r ==> |temp| > 0
    ensures !Wrapping(st) && InGrid(head) && |temp| <= 37 ==> !r
  {
    FreeSpaceRange(st, head, temp, if Wrapping(st) then 8 else 7);
    NormalWindowBound(st, head, temp);
    if CountBlocked(st, Body(temp), Neighbours(head)) >= BlockedThreshold(st) then
      FreeSpace(st, head, temp, if Wrapping(st) then 8 else 7) < TrapArea(st, |temp|)
    else false
  }

  /** In normal mode the radius-7 window around a board cell counts at
      least 64 positions less one per excluded cell. */
  lemma NormalWindowBound(st: State, head: Cell, excl: seq<Cell>)
    ensures !Wrapping(st) && InGrid(head) ==>
              WindowCount(st, excl, head.x - 7, head.y - 7, 15, 15) + |excl| >= 64
  {
    if !Wrapping(st) && InGrid(head) {
      WideWindow(st, head);
      WindowExclusion(st, excl, head.x - 7, head.y - 7, 15, 15);
    }
  }

  /** A column splits at any row. */
  lemma {:induction false} ColumnSplit(st: State, excl: seq<Cell>, x: int, y0: int, a: nat, b: nat)
    ensures ColumnCount(st, excl, x, y0, a + b)
              == ColumnCount(st, excl, x, y0, a) + ColumnCount(st, excl, x, y0 + a, b)
    decreases b
  {
    if b > 0 {
      ColumnSplit(st, excl, x, y0, a, b - 1);
    }
  }

  /** A window splits at any column. */
  lemma {:induction false} WindowSplit(st: State, excl: seq<Cell>, x0: int, y0: int, a: nat, b: nat, m: nat)
    ensures WindowCount(st, excl, x0, y0, a + b, m)
              == WindowCount(st, excl, x0, y0, a, m) + WindowCount(st, excl, x0 + a, y0, b, m)
    decreases b
  {
    if b > 0 {
      WindowSplit(st, excl, x0, y0, a, b - 1, m);
    }
  }

  /** In normal mode a column segment inside the board counts every row
      when nothing is excluded. */
  lemma {:induction false} FullColumn(st: State, x: int, y0: int, m: nat)
    requires !Wrapping(st) && 0 <= x < N && 0 <= y0 && y0 + m <= N
    ensures ColumnCount(st, [], x, y0, m) == m
  {
    if m > 0 {
      FullColumn(st, x, y0, m - 1);
    }
  }

  /** The 15 rows around a board row include 8 board rows. */
  lemma TallColumn(st: State, x: int, y: int)
    requires !Wrapping(st) && 0 <= x < N && 0 <= y < N
    ensures ColumnCount(st, [], x, y - 7, 15) >= 8
  {
    if y <= 14 {
      ColumnSplit(st, [], x, y - 7, 7, 8);
      FullColumn(st, x, y, 8);
    } else {
      ColumnSplit(st, [], x, y - 7, 8, 7);
      FullColumn(st, x, y - 7, 8);
    }
  }

  /** Board columns around a board row count at least 8 each. */
  lemma {:induction false} BoardColumns(st: State, x0: int, y: int, n: nat)
    requires !Wrapping(st) && 0 <= x0 && x0 + n <= N && 0 <= y < N
    ensures WindowCount(st, [], x0, y - 7, n, 15) >= 8 * n
  {
    if n > 0 {
      BoardColumns(st, x0, y, n - 1);
      TallColumn(st, x0 + n - 1, y);
    }
  }

  /** In normal mode the radius-7 window around a board cell holds at least
      an 8 by 8 block of board positions, even in a corner. */
  lemma WideWindow(st: State, head: Cell)
    requires !Wrapping(st) && InGrid(head)
    ensures WindowCount(st, [], head.x - 7, head.y - 7, 15, 15) >= 64
  {
    if head.x <= 14 {
      WindowSplit(st, [], head.x - 7, head.y - 7, 7, 8, 15);
      BoardColumns(st, head.x, head.y, 8);
    } else {
      WindowSplit(st, [], head.x - 7, head.y - 7, 8, 7, 15);
      BoardColumns(st, head.x - 7, head.y, 8);
    }
  }

  /** In normal mode one more excluded cell hides at most one position of a
      column: the one it sits on. */
  lemma {:induction false} ColumnDrop(st: State, c: Cell, rest: seq<Cell>, x: int, y0: int, m: nat)
    requires !Wrapping(st)
    ensures ColumnCount(st, [c] + rest, x, y0, m) + (if c.x == x && y0 <= c.y < y0 + m then 1 else 0)
              >= ColumnCount(st, rest, x, y0, m)
  {
    if m > 0 {
      ColumnDrop(st, c, rest, x, y0, m - 1);
      var y := y0 + m - 1;
      if Counted(st, rest, x, y) && !Counted(st, [c] + rest, x, y) {
        assert Cell(x, y) in [c] + rest;
        assert Cell(x, y) == c;
      }
    }
  }

  /** ... and at most one position of a window. */
  lemma {:induction false} WindowDrop(st: State, c: Cell, rest: seq<Cell>, x0: int, y0: int, n: nat, m: nat)
    requires !Wrapping(st)
    ensures WindowCount(st, [c] + rest, x0, y0, n, m)
              + (if x0 <= c.x < x0 + n && y0 <= c.y < y0 + m then 1 else 0)
              >= WindowCount(st, rest, x0, y0, n, m)
  {
    if n > 0 {
      WindowDrop(st, c, rest, x0, y0, n - 1, m);
      ColumnDrop(st, c, rest, x0 + n - 1, y0, m);
    }
  }

  /** In normal mode excluding cells hides at most one window position per
      excluded cell. */
  lemma {:induction false} WindowExclusion(st: State, excl: seq<Cell>, x0: int, y0: int, n: nat, m: nat)
    requires !Wrapping(st)
    ensures WindowCount(st, excl, x0, y0, n, m) + |excl| >= WindowCount(st, [], x0, y0, n, m)
    decreases |excl|
  {
    if excl != [] {
      WindowExclusion(st, excl[1..], x0, y0, n, m);
      WindowDrop(st, excl[0], excl[1..], x0, y0, n, m);
      assert [excl[0]] + excl[1..] == excl;
    }
  }

  /** Around a board coordinate the single wrap keeps the coordinate and
      moves both neighbours off it and apart from each other. */
  lemma WrappedAxisNeighbours(a: int)
    requires 0 <= a < N
    ensures WrapOnce(a) == a
    ensures WrapOnce(a + 1) != a && WrapOnce(a - 1) != a
    ensures WrapOnce(a + 1) != WrapOnce(a - 1)
  {
    WrapOnceAgrees(a);
    WrapOnceAgrees(a + 1);
    WrapOnceAgrees(a - 1);
  }

  /** The blocked count around `head` in wall-through mode, one term per
      wrapped neighbour. */
  lemma CountBlockedUnrolled(st: State, body: seq<Cell>, head: Cell)
    requires Wrapping(st)
    ensures CountBlocked(st, body, Neighbours(head))
              == (if Cell(WrapOnce(head.x + 1), WrapOnce(head.y)) in body then 1 else 0)
               + (if Cell(WrapOnce(head.x - 1), WrapOnce(head.y)) in body then 1 else 0)
               + (if Cell(WrapOnce(head.x), WrapOnce(head.y + 1)) in body then 1 else 0)
               + (if Cell(WrapOnce(head.x), WrapOnce(head.y - 1)) in body then 1 else 0)
  {
    var ns := Neighbours(head);
    forall i | 0 <= i < 4
      ensures CountBlocked(st, body, ns[i..]) == (if Blocked(st, body, ns[i]) then 1 else 0) + CountBlocked(st, body, ns[i + 1..])
    {
      assert ns[i..][1..] == ns[i + 1..];
    }
    assert ns[4..] == [];
    assert ns[0..] == ns;
  }

  /** In wall-through mode the blocked neighbours of a board cell are
      different body cells, so at most |body| of them are blocked. */
  lemma BlockedAtMostBody(st: State, body: seq<Cell>, head: Cell)
    requires Wrapping(st) && InGrid(head) && |body| <= 2
    ensures CountBlocked(st, body, Neighbours(head)) <= |body|
  {
    CountBlockedUnrolled(st, body, head);
    WrappedAxisNeighbours(head.x);
    WrappedAxisNeighbours(head.y);
    var r := Cell(WrapOnce(head.x + 1), head.y);
    var l := Cell(WrapOnce(head.x - 1), head.y);
    var d := Cell(head.x, WrapOnce(head.y + 1));
    var u := Cell(head.x, WrapOnce(head.y - 1));
    assert r != l && r != d && r != u && l != d && l != u && d != u;
    if |body| == 0 {
      assert r !in body && l !in body && d !in body && u !in body;
    } else if |body| == 1 {
      assert body == [body[0]];
    } else {
      assert body == [body[0], body[1]];
    }
  }

  /** In wall-through mode a trap needs three blocked neighbours, which are
      three distinct body cells, so a snake of at most three cells (a body
      of at most two) is never judged trapped. */
  lemma ShortSnakeNeverTrappedWhenWrapping(st: State, head: Cell, temp: seq<Cell>)
    requires Wrapping(st) && InGrid(head) && |temp| <= 3
    ensures !IsInClosedLoop(st, head, temp)
  {
    BlockedAtMostBody(st, Body(temp), head);
  }
}
